=== FILE: README.md ===
# Interactive map viewer: pin list and viewport model

A Dafny model of the state logic of a React map viewer in which a user pans
and zooms a map image and places pins (id, position in percent of the map,
title, description, creation time) that persist in local storage and can be
edited, searched and deleted.

The logic lives in event handlers, repeated with small differences across
component variants. Each variant is one module of pure transition functions
on an immutable state record:

- `SimpleMapPage` (`simple-map-page.tsx`) owns the pins, the adding mode, the
  pending position, the selection and the viewport (pan offset, scale). It
  guards clicks on the map being mounted, and it has a reset button.
- `CustomMap` (`custom-map.tsx`) has the same handlers, minus the mount guard
  and the reset. Adding mode belongs to the page, which passes it in as a prop
  together with its setter. `CustomMap.AgreesWithSimpleMapPage` proves that
  its handlers match `SimpleMapPage`'s handlers for a mounted map.
- `MapContainer` (`map-container.tsx`) does not own the list. It forwards
  every change to its parent's callbacks, modelled as a `Request` result.
  `MapContainer.ForwardingAgreesWithSimpleMapPage` relates those requests to
  the other variants' reducer.
- `Sidebar`, `PinListView` and `SimpleSidebar` (`sidebar.tsx`,
  `pin-list.tsx`, `simple-sidebar.tsx`) are the pin panels. Each shows a
  case-insensitive search result. The first two sort it newest first; the
  third keeps list order.
- `PinForm` (`pin-form.tsx`) holds the title check on submit and the choice
  of buttons.

Shared modules:

- `Pins` holds the `Point` and `Pin` datatypes.
- `PinList` is the append / replace-by-id / delete-by-id reducer.
- `Viewport` covers click-to-percent, drag-to-pan and the clamped zoom.
- `Storage` models local storage as an opaque key-to-value map.
- `Search` holds the search filter and the stable newest-first sort.
- `Text` holds ASCII lower-casing, substring search and `trim`.
- `Seqs` holds the order-preserving filter and the subsequence relation.
- `Wrappers` holds `Option`.

Representation choices:

- Coordinates and scale are `real`. IEEE rounding is not modelled.
- `createdAt` is an `int` in milliseconds since the epoch, standing for the
  ISO string that every consumer parses.
- Ids and creation times are parameters of the submit handlers, standing for
  `Date.now()` and `new Date().toISOString()`. Nothing assumes ids are
  unique; the code does not ensure it.
- The JSON encoding is abstracted. A stored value is either a pin array or
  text that does not parse.

Facts of the code that shape the model:

- The zoom range is [0.5, 2] in steps of 0.2.
- The handlers accept any title; only the form checks it.
- Updating an absent id changes nothing, and raises no error.
- These components have no relocation mode, no category filter and no
  completion flag.
- A list emptied by deletion is not written to storage (see Findings).
- A click is stored in percent of the element that received it. In
  `simple-map-page.tsx` and `custom-map.tsx` markers are drawn in percent of a
  larger, panned and zoomed layer inside that element (see Findings); in
  `map-container.tsx` the pending marker is drawn in percent of the measured
  element itself.
- In `map-container.tsx` the flags `mapLoaded` and `mapError` are set only
  by the `<img>`'s `onLoad` and `onError`, and that `<img>` is rendered only
  once one of them is set. So the loader never clears
  (`MapContainer.LoaderNeverClears`), and the markers, the pending marker and
  both forms are never mounted. Only `handleMapClick` on the element itself
  can run. The handlers and forms of this file are modelled as they would
  act once the content can render (see Findings).
- `simple-map-page.tsx` defines `handleImageLoad` and `handleImageError` but
  attaches them to nothing, so `mapLoaded` stays false and its loader
  (`absolute inset-0 … z-10`) stays inside the map element. By CSS paint
  order, read from the markup and not executed, that loader has a positive
  z-index and lies over the transformed layer, the controls and the forms,
  none of which has one. A mouse click on a marker then lands on the loader
  and bubbles to `handleMapClick`; the marker's own handler does not run, and
  markers cannot take keyboard focus. The controls and forms are reachable by
  keyboard only (the title field has `autoFocus`). The model states what each
  handler does when it runs; which ones a mouse can reach is not modelled.
- The sidebar of the map page reads the key `image-map-pins`, but the map
  variants write `rdr2-map-pins`. So the sidebar never sees pins saved by the
  map beside it (`Sidebar.MapSavesNotSeen`). Its colour table says it was
  written for a main component that this repository does not contain, so this
  is recorded as a fact of the model, not as a finding.

## Model

| member | source | states |
|---|---|---|
| PinList.AppendAddsOneAtEnd | app/components/simple-map-page.tsx:107 | `[...pins, newPin]` has exactly one more pin, it is at the end, earlier pins are unchanged, and the multiset grows by that pin |
| PinList.RemoveUndoesAppend | app/components/simple-map-page.tsx:107-118 | deleting the id of an appended pin, when no earlier pin had that id, gives back the list before the append |
| PinList.ReplaceById | app/components/simple-map-page.tsx:113 | the `map` keeps the length, and each position holds the updated pin if its id matched and the old pin otherwise |
| PinList.ReplaceKeepsIds | app/components/simple-map-page.tsx:113 | an update leaves the sequence of ids, and so the order of the list, unchanged |
| PinList.ReplaceAbsentIsIdentity | app/components/simple-map-page.tsx:113 | updating with an id no pin carries changes nothing |
| PinList.ReplacePresentIffMatched | app/components/simple-map-page.tsx:113 | the updated pin appears in the list exactly when some pin had its id |
| PinList.ReplaceIdempotent | app/components/simple-map-page.tsx:113 | applying the same update twice equals applying it once |
| PinList.RemoveById | app/components/simple-map-page.tsx:118 | the `filter` keeps exactly the pins with another id, in order (a subsequence); the length drops by the number of pins with that id |
| PinList.RemoveAbsentIsIdentity | app/components/simple-map-page.tsx:118 | deleting an absent id is the identity |
| PinList.RemovePresentShrinks | app/components/simple-map-page.tsx:118 | deleting a present id shortens the list |
| PinList.RemoveIdempotent | app/components/simple-map-page.tsx:118 | deleting the same id twice equals deleting it once |
| PinList.RemoveAfterReplace | app/components/simple-map-page.tsx:112-120 | updating a pin and then deleting its id equals deleting it directly |
| Viewport.PercentInRangeIffInside | app/components/map-container.tsx:58-60 | the percentage lies in [0, 100] on each axis exactly when the click lies within the element's rectangle on that axis |
| Viewport.ClickToPercent | app/components/map-container.tsx:58-60 | the percent formula of all three variants (also simple-map-page.tsx:63-65 and custom-map.tsx:57-59); it has no contract of its own, and `ClickThenProject` with `ProjectThenClick` show it is the exact inverse of drawing at `left: x%; top: y%` of the same rectangle |
| Viewport.ClickThenProject | app/components/map-container.tsx:58-62 | in `map-container.tsx`, where the pending marker would be drawn (once its content can render) at `left: x%` of the clicked element itself, a click converted to percent is drawn back on the clicked pixel |
| Viewport.ProjectThenClick | app/components/map-container.tsx:149-155 | a click on the point where the pending marker of a position would be drawn converts back to that position |
| Viewport.LayerRect | app/components/simple-map-page.tsx:200-213 | a panned and zoomed layer of positive size covers a rectangle of positive size whose corners are where its two corners are drawn |
| Viewport.MarkerIsPercentOfLayerRect | app/components/simple-map-page.tsx:242-251 | a marker at `left: x%` inside a transformed layer is drawn at x percent of the layer's on-screen rectangle |
| Viewport.ClickOnLayerLandsOnMarker | app/components/simple-map-page.tsx:200-251 | a click measured in percent of the layer's on-screen rectangle puts the marker on the clicked pixel |
| Viewport.DragAnchor | app/components/simple-map-page.tsx:73 | anchor plus current offset is the pointer |
| Viewport.DragOffset | app/components/simple-map-page.tsx:78-81 | anchor plus new offset is the pointer |
| Viewport.DragFollowsPointer | app/components/simple-map-page.tsx:70-82 | a drag shifts the offset by exactly the pointer's travel, and a return to the press point restores the offset |
| Viewport.ZoomIn | app/components/simple-map-page.tsx:88-90 | zoom-in gives `s + 0.2` when that is at most 2 and exactly 2 when it is at least 2 (`Math.min`), never lowers a scale at most 2, and keeps [0.5, 2] |
| Viewport.ZoomOut | app/components/simple-map-page.tsx:92-94 | zoom-out gives `s - 0.2` when that is at least 0.5 and exactly 0.5 when it is at most 0.5 (`Math.max`), never raises a scale at least 0.5, and keeps [0.5, 2] |
| Viewport.ZoomStepsCancel | app/components/simple-map-page.tsx:88-94 | away from the bounds, a zoom step is undone by the opposite step |
| Storage.Load | app/components/simple-map-page.tsx:40-48 | a missing key or unparseable text leaves the list empty |
| Storage.Save | app/components/simple-map-page.tsx:56 | writing touches only the given key |
| Storage.SaveThenLoad | app/components/simple-map-page.tsx:41-56 | a list written under a key is read back unchanged |
| Storage.SaveIfNonEmpty | app/components/simple-map-page.tsx:55-57 | a non-empty list is read back after the save, and an empty list leaves the store unchanged |
| Storage.DeletedLastPinReappears | app/components/simple-map-page.tsx:55-57 | with the guard as written, a one-pin list followed by the empty list still reads back the deleted pin |
| Storage.SaveOnceLoaded | app/components/simple-map-page.tsx:52-58 | after mount, every list, the empty one included, is read back as saved |
| Storage.SaveOnceLoadedMirrors | app/components/simple-map-page.tsx:52-58 | with the corrected effect the store follows the list through any two changes, including a change to empty |
| Text.Lower | app/components/sidebar.tsx:59-60 | lower-casing keeps the length, maps each character by the ASCII rule, and leaves no capital letter |
| Text.LowerIdempotent | app/components/sidebar.tsx:59-60 | lower-casing twice equals lower-casing once |
| Text.ContainsIffOccurs | app/components/sidebar.tsx:59 | `includes` holds exactly when the query occurs at some position |
| Text.Trim | app/components/pin-form.tsx:33 | `trim` returns an infix of the input such that everything before it and everything after it is white space, it neither starts nor ends with white space, and it is empty exactly when the input is all white space |
| Search.SearchPins | app/components/sidebar.tsx:56-62 | an empty query returns the list itself; otherwise a pin is kept exactly when its lower-cased title or description contains the lower-cased query; the result is a subsequence and no longer |
| Search.EmptyQueryMatchesAll | app/components/sidebar.tsx:56-62 | every pin matches the empty query, so the empty-query short cut agrees with the filter |
| Search.SearchKeepsOccurrences | app/components/pin-list.tsx:30-36 | a matching pin is shown as many times as it occurs, and a non-matching pin not at all |
| Search.SearchIgnoresCase | app/components/sidebar.tsx:58-60 | a query and its lower-case form select the same pins |
| Search.SearchIdempotent | app/components/simple-sidebar.tsx:27-33 | searching a search result with the same query changes nothing |
| Search.InsertByRecent | app/components/sidebar.tsx:65-67 | inserting into a newest-first list keeps it newest first, adds exactly that pin, and puts it before pins created at the same time |
| Search.SortByRecent | app/components/sidebar.tsx:65-67 | the sort is a permutation (same multiset), is ordered by `createdAt` descending, and keeps the input order among pins with equal `createdAt` |
| Search.SortKeepsPins | app/components/pin-list.tsx:38 | sorting keeps the length and the set of pins |
| Search.SortOfSortedIsIdentity | app/components/pin-list.tsx:38 | a list already newest first is left unchanged |
| Search.StableOrderUnique | app/components/pin-list.tsx:38 | two newest-first lists that order the pins of each creation time alike are equal |
| Search.SortIsTheStableOrdering | app/components/pin-list.tsx:38 | every stable newest-first reordering of the list equals the sort's result |
| Search.NoPinsYetMeansEmpty | app/components/sidebar.tsx:112-128 | "No pins added yet" shows exactly when there are no pins and no query |
| PinForm.Initial | app/components/pin-form.tsx:28-29 | the fields start as the `title` and `description` props |
| PinForm.Submit | app/components/pin-form.tsx:31-36 | `onSubmit` is called exactly when the title has a character `trim` keeps, and it receives both fields untrimmed |
| PinForm.DescriptionNeverChecked | app/components/pin-form.tsx:33-34 | acceptance does not depend on the description, and an empty description is accepted |
| PinForm.BlankTitleRefused | app/components/pin-form.tsx:33 | a title of white space only is refused |
| PinForm.ButtonsFor | app/components/pin-form.tsx:61-97 | Delete appears exactly when editing with `onDelete`; a second Cancel appears exactly when editing; some Cancel is always present; the submit label is "Update Pin" or "Add Pin" |
| SimpleMapPage.MapClick | app/components/simple-map-page.tsx:60-68 | without adding mode, or during a drag, or with the map unmounted, nothing changes; otherwise only the pending position changes, to the click in percent of the map element's rectangle |
| SimpleMapPage.ClickMissesMarker | app/components/simple-map-page.tsx:63-65 | as written: on a 1200 × 800 map element at the initial view, a click at (120, 80) stores (10 %, 10 %), whose marker is drawn at (-200, -200) |
| SimpleMapPage.MapClickOnLayer | app/components/simple-map-page.tsx:60-68 | corrected: measured against the 2000 × 1500 layer's on-screen rectangle, the stored position's marker is drawn on the clicked pixel; the guards and the frame are those of the handler |
| SimpleMapPage.MouseDown | app/components/simple-map-page.tsx:70-74 | ignored while adding; otherwise dragging starts with anchor plus offset equal to the pointer, and nothing else changes |
| SimpleMapPage.MouseMove | app/components/simple-map-page.tsx:76-82 | the offset changes only while dragging, to pointer minus anchor |
| SimpleMapPage.MouseUp | app/components/simple-map-page.tsx:190-191 | mouse-up and mouse-leave always clear the dragging flag and nothing else |
| SimpleMapPage.DragBackRestoresOffset | app/components/simple-map-page.tsx:70-82 | pressing and moving back to the press point restores the original offset |
| SimpleMapPage.DragPansByTravel | app/components/simple-map-page.tsx:70-82 | a press then a move pans by exactly the pointer's travel |
| SimpleMapPage.ZoomIn | app/components/simple-map-page.tsx:88-90 | only the scale changes, and it becomes the clamped zoom-in of the old scale (`s + 0.2`, or exactly 2 once that reaches 2); [0.5, 2] is kept |
| SimpleMapPage.ZoomOut | app/components/simple-map-page.tsx:92-94 | only the scale changes, and it becomes the clamped zoom-out of the old scale (`s - 0.2`, or exactly 0.5 once that reaches 0.5); [0.5, 2] is kept |
| SimpleMapPage.ResetPosition | app/components/simple-map-page.tsx:139-142 | offset (0, 0) and scale 1, which is within the zoom bounds; nothing else changes |
| SimpleMapPage.ToggleAdding | app/components/simple-map-page.tsx:164 | the header button flips adding mode and nothing else |
| SimpleMapPage.SelectPin | app/components/simple-map-page.tsx:251-254 | the marker's handler selects that pin and nothing else (with the loader never cleared, a mouse click does not reach it) |
| SimpleMapPage.PinSubmit | app/components/simple-map-page.tsx:96-110 | without a pending position nothing changes; otherwise exactly one pin with that position, id, fields and time is appended, earlier pins are unchanged, the pending position is cleared and adding mode ends |
| SimpleMapPage.PinUpdate | app/components/simple-map-page.tsx:112-115 | length kept, matching ids replaced, other pins untouched, selection cleared |
| SimpleMapPage.PinDelete | app/components/simple-map-page.tsx:117-120 | exactly the matching ids removed, order kept, the count drops by the number of pins with that id, an absent id leaves the list unchanged, selection cleared |
| SimpleMapPage.PinCancel | app/components/simple-map-page.tsx:122-125 | pending position and selection cleared, nothing else |
| SimpleMapPage.SubmitAddForm | app/components/simple-map-page.tsx:323-327 | the add form submits only a title with content, and then acts as `handlePinSubmit` |
| SimpleMapPage.SubmitEditForm | app/components/simple-map-page.tsx:330-334 | the edit form submits only a title with content, and then updates the selected pin, keeping its id, position and time |
| SimpleMapPage.DeleteFromEditForm | app/components/simple-map-page.tsx:335 | the edit form's Delete removes the selected pin from the list |
| SimpleMapPage.EditUnchangedKeepsPins | app/components/simple-map-page.tsx:330-338 | submitting the edit form unchanged leaves the list as it was |
| SimpleMapPage.SwitchingPinCarriesText | app/components/simple-map-page.tsx:330-339 | as written (no `key`, so `useState` keeps its fields): selecting pin B while pin A's edit form is open keeps A's title and description, and Update then writes them into B |
| SimpleMapPage.EditFields | app/components/pin-form.tsx:28-29 | as written (no `key` at simple-map-page.tsx:332): fields exist exactly while the edit form is shown; a form that stays shown keeps its fields whatever pin is now selected; only a form that appears starts from the selected pin's title and description |
| SimpleMapPage.EditFieldsKeyed | app/components/pin-form.tsx:28-29 | corrected (form keyed by the pin id): fields exist exactly while the edit form is shown, and they restart from the selected pin's title and description whenever the form opens or the selected id changes |
| SimpleMapPage.SwitchingPinStartsFresh | app/components/simple-map-page.tsx:330-339 | corrected: selecting another pin starts the form from that pin's fields, so an unchanged Update leaves the list as it was |
| SimpleMapPage.PersistEffect | app/components/simple-map-page.tsx:52-58 | before mount, or for an empty list, the store is untouched; otherwise the list is read back from the map key |
| SimpleMapPage.PersistEffectIntended | app/components/simple-map-page.tsx:52-58 | the corrected effect: after mount, every list is read back from the map key |
| SimpleMapPage.DeleteOnlyPinThenReload | app/components/simple-map-page.tsx:52-58 | deleting the only pin empties the list; as written the next mount reloads that pin, and with the intended effect it loads none |
| SimpleMapPage.StepPinCount | app/components/simple-map-page.tsx:96-125 | any one event changes the pin count by +1 (an accepted submit), by minus the number of matching ids (a delete), or by 0 |
| SimpleMapPage.ScaleStaysInRange | app/components/simple-map-page.tsx:88-94 | from a scale in [0.5, 2], every sequence of events keeps the scale in [0.5, 2] |
| CustomMap.MapClick | app/components/custom-map.tsx:54-62 | nothing changes unless adding mode is on and no drag is in progress; otherwise only the pending position changes, to the click in percent of the container's rectangle |
| CustomMap.ClickMissesMarker | app/components/custom-map.tsx:57-59 | as written: on a 1000 × 1000 container at the initial view, a click at (500, 500) stores (50 %, 50 %), whose marker is drawn at (1024, 1024) |
| CustomMap.MapClickOnLayer | app/components/custom-map.tsx:54-62 | corrected: measured against the 2048 × 2048 layer's on-screen rectangle, the stored position's marker is drawn on the clicked pixel; the guards and the frame are those of the handler |
| CustomMap.MouseDown | app/components/custom-map.tsx:64-68 | suppressed while adding; otherwise dragging starts with anchor plus offset equal to the pointer |
| CustomMap.MouseMove | app/components/custom-map.tsx:70-76 | the offset changes only while dragging, to pointer minus anchor |
| CustomMap.MouseUp | app/components/custom-map.tsx:78-80 | the dragging flag is cleared, nothing else |
| CustomMap.ZoomIn | app/components/custom-map.tsx:82-84 | the zoom becomes the clamped zoom-in of the old zoom (`z + 0.2`, or exactly 2 once that reaches 2); [0.5, 2] kept; only the zoom changes |
| CustomMap.ZoomOut | app/components/custom-map.tsx:86-88 | the zoom becomes the clamped zoom-out of the old zoom (`z - 0.2`, or exactly 0.5 once that reaches 0.5); [0.5, 2] kept; only the zoom changes |
| CustomMap.PinSubmit | app/components/custom-map.tsx:90-104 | a no-op without a pending position; otherwise one pin appended at the end, pending position cleared, adding mode set to false |
| CustomMap.PinUpdate | app/components/custom-map.tsx:106-109 | length and ids kept; every pin with the updated id becomes the updated pin; other pins untouched; selection cleared |
| CustomMap.PinDelete | app/components/custom-map.tsx:111-114 | exactly the pins with the id filtered out, in order; the count drops by the number of pins with that id; an absent id leaves the list unchanged; selection cleared |
| CustomMap.PinCancel | app/components/custom-map.tsx:116-119 | pending position and selection cleared |
| CustomMap.SelectPin | app/components/custom-map.tsx:167-170 | the marker click, which stops propagation, selects that pin and changes nothing else |
| CustomMap.PersistEffect | app/components/custom-map.tsx:48-52 | stored only when `pins.length > 0`, and then read back |
| CustomMap.AgreesWithSimpleMapPage | app/components/custom-map.tsx:54-119 | every handler equals `SimpleMapPage`'s handler for a mounted map |
| MapContainer.MapClick | app/components/map-container.tsx:55-63 | nothing changes unless adding mode is on and the map is mounted, with no drag guard; otherwise the pending position becomes the click in percent of the clicked element's rectangle, which is where its marker is drawn, and the selection is kept |
| MapContainer.PinSubmit | app/components/map-container.tsx:65-78 | a no-op without a pending position; otherwise exactly one `onAddPin` carrying the pending position, the pending position cleared, and adding mode not touched |
| MapContainer.PinUpdate | app/components/map-container.tsx:80-83 | `onUpdatePin` gets the same pin; selection cleared |
| MapContainer.PinDelete | app/components/map-container.tsx:85-88 | `onDeletePin` gets the same id; selection cleared |
| MapContainer.PinCancel | app/components/map-container.tsx:90-93 | pending position and selection cleared; no callback |
| MapContainer.SelectPin | app/components/map-container.tsx:141 | a marker click selects that pin and keeps the pending position (markers render only once the loader clears) |
| MapContainer.VisibleForms | app/components/map-container.tsx:147-174 | in the ready branch, the edit form would show exactly for a selection with no pending position, so the two forms never show together |
| MapContainer.ContentFor | app/components/map-container.tsx:111-124 | the loader shows exactly when neither flag is set, the error notice exactly when the error is set, and the image with markers and forms exactly when loaded without error |
| MapContainer.OnImage | app/components/map-container.tsx:95-101 | as written, image events reach the handlers only in the ready branch (the `<img>` at 127-133); outside it the flags stay as they were |
| MapContainer.LoaderNeverClears | app/components/map-container.tsx:111-133 | as written, from the initial flags no sequence of image events changes them, so the content stays on the loader |
| MapContainer.OnImageIntended | app/components/map-container.tsx:95-101 | corrected (the `<img>` mounted under the loader): a load sets `mapLoaded` and keeps the error flag; a failure shows the error notice |
| MapContainer.ImageLoadShowsMap | app/components/map-container.tsx:111-133 | corrected: from the initial flags, a load shows the map and a failure shows the error notice |
| MapContainer.CancelClicked | app/components/map-container.tsx:105-108 | as written (the forms sit inside the clickable map element): in adding mode a click on Cancel clears the form and then, bubbling, sets a new pending position at the click, so the add form stays shown; outside adding mode it clears both |
| MapContainer.CancelClickedIntended | app/components/map-container.tsx:90-93 | corrected (the click does not reach the map): Cancel shows neither form, so an open add form closes |
| MapContainer.AddFormClickMovesMarker | app/components/map-container.tsx:147-158 | as written: in adding mode a click on any part of the add form (a field, the Add button) keeps the add form shown and moves its pending marker to the clicked spot |
| MapContainer.EditFormClickSwitchesToAdd | app/components/map-container.tsx:162-174 | as written: in adding mode a click anywhere in the edit form makes a position pending, so only the add form is shown, while the pin stays selected |
| MapContainer.ClickStoppedAtForms | app/components/map-container.tsx:105-108 | corrected: a click inside either form leaves the shown form, the pending position and the selection as they were (an open edit form stays open); any other click is `handleMapClick` |
| MapContainer.ForwardingAgreesWithSimpleMapPage | app/components/map-container.tsx:65-93 | a parent that applies the requests with the shared reducer ends with the same list, pending position and selection as `SimpleMapPage` |
| Sidebar.CategoryColor | app/components/sidebar.tsx:134-136 | a known category gets its table colour, and anything else, a missing category included, gets `default`; the lookup is total and always lands in the table |
| Sidebar.MountedPins | app/components/sidebar.tsx:42-54 | without a stored entry under its key the sidebar starts empty |
| Sidebar.MapSavesNotSeen | app/components/sidebar.tsx:46 | a save under the map key never changes what the sidebar reads |
| Sidebar.Render | app/components/sidebar.tsx:56-79 | the header counts all pins; the rows are newest first and hold exactly the matching pins, each as often as in the search result |
| PinListView.Render | app/components/pin-list.tsx:30-43 | the header counts all pins, not the filtered ones; the rows are a newest-first permutation of the search result |
| PinListView.DeleteClicked | app/components/pin-list.tsx:100-103 | the delete button of row i forwards exactly row i's id, which is the id of a pin in the list |
| PinListView.DeleteRemovesRowPin | app/components/pin-list.tsx:100-103 | once the forwarded id is deleted, that row's pin is gone and the list is shorter |
| SimpleSidebar.Render | app/components/simple-sidebar.tsx:27-44 | the header counts all pins; the rows are a subsequence of the list (original order, no sort) holding exactly the matching pins, each as many times as it occurs in the list, at most as many as the total; an empty query lists every pin |

## Left out

- `leaflet-map.tsx` wraps calls into the Leaflet library, which is not part of this model. Its list handlers repeat the ones modelled here.
- `share-button.tsx` is browser plumbing: `btoa`, `URL`, clipboard and timers.
- `map-page.tsx`, `test-map.tsx`, `fallback-map.tsx`, `fallback-image.tsx` and `pin-marker.tsx` are markup only. The page's adding toggle is carried in `CustomMap.State`.
- JSON parsing and serialisation are abstracted into `Storage.Stored`. Stored text that parses as JSON but is not a pin array is not modelled.
- The image load and error flags of `simple-map-page.tsx` and `custom-map.tsx`, the map error notice, the sidebar open flag, the resize listener and map size, cursor styles and CSS transitions are display state, so they are not modelled. The flags of `map-container.tsx` decide whether its content renders at all and are modelled in `MapContainer.ContentFor`. In `simple-map-page.tsx` the loader left over the map decides which elements a mouse can reach; that is described above and not modelled.
- Formatting of dates (`toLocaleString`, `formatDistanceToNow`) is display only.
- Clicking a row in `sidebar.tsx` calls `onSelectPin` and `onClose`. Those are parent callbacks, so only the forwarding of the delete id in `pin-list.tsx` is modelled.
- `pin-list.tsx` receives `onPinUpdate` but never calls it, and its row click does nothing.
- React effect scheduling and batching are not modelled. The save effect is a function applied to the list after a change.
- Text.Lower: lower-cases ASCII letters only, because full Unicode `toLowerCase` mappings are outside the model.
- Search.SortByRecent: compares `createdAt` as integers. `new Date(...)` of a malformed string gives NaN, and what the comparator then does is not modelled.
- Viewport.ZoomIn: exact real arithmetic. The IEEE rounding of repeated 0.2 steps (1 + 0.2 + 0.2 ...) is not modelled.
- Viewport.ClickToPercent: requires a rectangle of positive size. A zero-size element would give `Infinity` or `NaN` percentages in JavaScript, which reals cannot represent.
- SimpleMapPage.MapClick: requires a map element of positive size when the click is accepted, for the same reason.
- CustomMap.MapClick: requires a container of positive size when the click is accepted, for the same reason.
- MapContainer.MapClick: requires a map element of positive size when adding mode is on and the map is mounted, for the same reason. `MapContainer.CancelClicked` has the same requirement.
- SimpleMapPage.MapClickOnLayer: requires a positive scale when the click is accepted; the scale never leaves [0.5, 2]. The marker icon's own offset (`-ml-3 -mt-6`) is not modelled here or in `CustomMap.MapClickOnLayer`.
- CustomMap.MapClickOnLayer: requires a positive zoom when the click is accepted; the zoom never leaves [0.5, 2].
- SimpleMapPage.SwitchingPinStartsFresh: requires that the newly selected pin has another id than the one being edited; selecting the same pin again keeps the typed text in both versions.
- Sidebar.CategoryColor: does not model lookups of inherited object keys such as `constructor`. JavaScript would return a function for those rather than fall back to `default`.

## Findings

| source | as written | input that shows it | evidently intended | confidence | as-written member | corrected member |
|---|---|---|---|---|---|---|
| app/components/simple-map-page.tsx:55-57 | after mount, the list is written only when `pins.length > 0` | store the list `[p]`, then delete `p`: the list becomes `[]` and is not written, so the store keeps `[p]` and the next mount loads `p` again | after mount (`isClient`), every list is written, the empty one included, so a deleted last pin stays deleted | medium, not executed | Storage.DeletedLastPinReappears | Storage.SaveOnceLoadedMirrors |
| app/components/simple-map-page.tsx:63-65 | the click is measured against the map element, but markers are drawn in percent of the 2000 × 1500 layer centred in it, then panned and zoomed | a 1200 × 800 map element at the initial view: a click at (120, 80) stores (10 %, 10 %), and its marker is drawn at (-200, -200) | the click is measured against the layer's on-screen rectangle, so the new pin appears where the user clicked | medium, not executed | SimpleMapPage.ClickMissesMarker | SimpleMapPage.MapClickOnLayer |
| app/components/custom-map.tsx:57-59 | the click is measured against the container, but markers are drawn in percent of the 2048 × 2048 layer at its corner, then panned and zoomed | a 1000 × 1000 container at the initial view: a click at (500, 500) stores (50 %, 50 %), and its marker is drawn at (1024, 1024) | the click is measured against the layer's on-screen rectangle | medium, not executed | CustomMap.ClickMissesMarker | CustomMap.MapClickOnLayer |
| app/components/simple-map-page.tsx:332-337 | the edit form has no `key`, and its fields are `useState` initial values, so a change of selection keeps the typed text | latent: edit pin A, then select pin B, then press Update: B gets A's title and description. As written a mouse click cannot reach B's marker under the loader that never clears, so this shows only once that loader can go | the form is keyed by the pin id (`key={selectedPin.id}`), so it restarts from B's fields | low, not executed | SimpleMapPage.SwitchingPinCarriesText | SimpleMapPage.SwitchingPinStartsFresh |
| app/components/map-container.tsx:105-108 | the forms are children of the element whose `onClick` places a pin, and no control stops propagation, so a click on Cancel bubbles into `handleMapClick`; so does a click on the add form's fields or Add button, which moves the pending marker there (`MapContainer.AddFormClickMovesMarker`) | latent, since as written the forms never mount (the loader never clears): in adding mode, open the add form and press Cancel: the pending position is cleared and then set to the Cancel button's position, so the form stays open | Cancel closes the form (the forms sit outside the clickable element, or stop propagation) | low, not executed | MapContainer.CancelClicked | MapContainer.CancelClickedIntended |
| app/components/map-container.tsx:162-174 | the edit form is also a child of the clickable map element, and it is shown only while no position is pending | latent, since as written the markers and forms never mount (the loader never clears): select a pin, switch adding mode on, then click into the edit form's title field: a position becomes pending, and the edit form is replaced by the add form | a click inside the edit form stays there, so the form remains open for the selected pin | low, not executed | MapContainer.EditFormClickSwitchesToAdd | MapContainer.ClickStoppedAtForms |
| app/components/map-container.tsx:111-133 | `mapLoaded` and `mapError` are set only by the `<img>`'s `onLoad` and `onError`, but that `<img>` is rendered only when one of them is already set | any mount: both flags start false, the loader branch renders, no `<img>` exists to fire `onLoad`, so the map, its markers and its forms never appear | the `<img>` is rendered in every branch (the loader drawn over it), so its load or error event ends the loading state | high, not executed | MapContainer.LoaderNeverClears | MapContainer.ImageLoadShowsMap |

=== FILE: custom_map.dfy ===
/** `CustomMap`: the map used by the map page. It owns the pin list, the
    pending position, the selection and the viewport (`zoom` is the scale);
    adding mode belongs to the page and arrives as the `isAddingPin` prop
    with its setter, so it is carried in `State` as the page's value. Unlike
    `SimpleMapPage`, a click needs no mounted-element check (the rectangle is
    the clicked element's own) and there is no reset. */
module CustomMap {
  import opened Wrappers
  import opened Pins
  import PinList
  import Seqs
  import Viewport
  import Storage
  import SimpleMapPage

  datatype State = State(
    pins: seq<Pin>,
    isAddingPin: bool,
    newPinPosition: Option<Point>,
    selectedPin: Option<Pin>,
    isDragging: bool,
    dragStart: Point,
    position: Point,
    zoom: real)

  const Initial := State([], false, None, None, false, Origin, Origin, 1.0)

  /** `handleMapClick`: in adding mode and outside a drag, the clicked point
      in percent of the map element becomes the pending position. */
  function MapClick(s: State, rect: Viewport.Rect, client: Point): (r: State)
    requires s.isAddingPin && !s.isDragging ==> rect.HasArea()
    ensures !(s.isAddingPin && !s.isDragging) ==> r == s
    ensures s.isAddingPin && !s.isDragging ==>
      && r.newPinPosition.Some?
      && Viewport.PercentToScreen(rect, r.newPinPosition.value) == client
      && r == s.(newPinPosition := r.newPinPosition)
  {
    if !s.isAddingPin || s.isDragging then s
    else
      Viewport.ClickThenProject(rect, client);
      s.(newPinPosition := Some(Viewport.ClickToPercent(rect, client)))
  }

  /** The 2048 × 2048 map layer: at the container's top-left corner, then
      panned and zoomed about its centre. */
  function MapLayer(rect: Viewport.Rect): Viewport.Layer
  {
    Viewport.Layer(Point(rect.left, rect.top), Point(2048.0, 2048.0))
  }

  /** Where the marker of a pin at `p` percent is drawn on screen. */
  function MarkerAt(s: State, rect: Viewport.Rect, p: Point): Point
  {
    Viewport.MarkerScreen(MapLayer(rect), s.position, s.zoom, p)
  }

  /** As written, the click is measured against the container but the marker
      is drawn inside the 2048 px layer: on a 1000 × 1000 container,
      unpanned and at zoom 1, a click at its centre (500, 500) is stored as
      (50, 50) and its marker drawn at (1024, 1024). */
  lemma ClickMissesMarker()
    ensures var s := Initial.(isAddingPin := true);
            var rect := Viewport.Rect(0.0, 0.0, 1000.0, 1000.0);
            && MapClick(s, rect, Point(500.0, 500.0)) == s.(newPinPosition := Some(Point(50.0, 50.0)))
            && MarkerAt(s.(newPinPosition := Some(Point(50.0, 50.0))), rect, Point(50.0, 50.0)) == Point(1024.0, 1024.0)
  {
    assert Viewport.ClickToPercent(Viewport.Rect(0.0, 0.0, 1000.0, 1000.0), Point(500.0, 500.0)) == Point(50.0, 50.0);
  }

  /** `handleMapClick` as evidently intended: the click measured in percent
      of the panned and zoomed layer, so that its marker is drawn where the
      user clicked. */
  function MapClickOnLayer(s: State, rect: Viewport.Rect, client: Point): (r: State)
    requires s.isAddingPin && !s.isDragging ==> s.zoom > 0.0
    ensures !(s.isAddingPin && !s.isDragging) ==> r == s
    ensures s.isAddingPin && !s.isDragging ==>
      && r.newPinPosition.Some?
      && MarkerAt(r, rect, r.newPinPosition.value) == client
      && r == s.(newPinPosition := r.newPinPosition)
  {
    if !s.isAddingPin || s.isDragging then s
    else
      var layer := MapLayer(rect);
      Viewport.ClickOnLayerLandsOnMarker(layer, s.position, s.zoom, client);
      s.(newPinPosition := Some(Viewport.ClickToPercent(Viewport.LayerRect(layer, s.position, s.zoom), client)))
  }

  /** `handleMouseDown`: suppressed in adding mode; otherwise the drag starts
      with the anchor at pointer minus offset. */
  function MouseDown(s: State, client: Point): (r: State)
    ensures s.isAddingPin ==> r == s
    ensures !s.isAddingPin ==>
      && r.isDragging
      && r.dragStart.Plus(s.position) == client
      && r == s.(isDragging := true, dragStart := r.dragStart)
  {
    if s.isAddingPin then s
    else s.(isDragging := true, dragStart := Viewport.DragAnchor(client, s.position))
  }

  /** `handleMouseMove`: while dragging, the offset is pointer minus anchor. */
  function MouseMove(s: State, client: Point): (r: State)
    ensures !s.isDragging ==> r == s
    ensures s.isDragging ==>
      && s.dragStart.Plus(r.position) == client
      && r == s.(position := r.position)
  {
    if !s.isDragging then s
    else s.(position := Viewport.DragOffset(client, s.dragStart))
  }

  /** `handleMouseUp`, also bound to mouse-leave. */
  function MouseUp(s: State): (r: State)
    ensures !r.isDragging
    ensures r.(isDragging := s.isDragging) == s
  {
    s.(isDragging := false)
  }

  /** `handleZoomIn`: one step in, capped at the largest scale. */
  function ZoomIn(s: State): (r: State)
    ensures r.zoom == Viewport.ZoomIn(s.zoom)
    ensures r.zoom <= Viewport.MaxScale
    ensures r.zoom == s.zoom + Viewport.ZoomStep || r.zoom == Viewport.MaxScale
    ensures Viewport.ScaleInRange(s.zoom) ==> Viewport.ScaleInRange(r.zoom)
    ensures r == s.(zoom := r.zoom)
  {
    s.(zoom := Viewport.ZoomIn(s.zoom))
  }

  /** `handleZoomOut`: one step out, floored at the smallest scale. */
  function ZoomOut(s: State): (r: State)
    ensures r.zoom == Viewport.ZoomOut(s.zoom)
    ensures Viewport.MinScale <= r.zoom
    ensures r.zoom == s.zoom - Viewport.ZoomStep || r.zoom == Viewport.MinScale
    ensures Viewport.ScaleInRange(s.zoom) ==> Viewport.ScaleInRange(r.zoom)
    ensures r == s.(zoom := r.zoom)
  {
    s.(zoom := Viewport.ZoomOut(s.zoom))
  }

  /** `handlePinSubmit`: a no-op without a pending position; otherwise one pin
      carrying it is appended, the pending position is cleared and
      `setIsAddingPin(false)` ends adding mode. */
  function PinSubmit(s: State, title: string, description: string, id: string, now: int): (r: State)
    ensures s.newPinPosition.None? ==> r == s
    ensures s.newPinPosition.Some? ==>
      && |r.pins| == |s.pins| + 1
      && r.pins[..|s.pins|] == s.pins
      && r.pins[|s.pins|] == Pin(id, s.newPinPosition.value, title, description, now)
      && r.newPinPosition.None? && !r.isAddingPin
      && r == s.(pins := r.pins, newPinPosition := None, isAddingPin := false)
  {
    match s.newPinPosition
    case None => s
    case Some(at) =>
      var pin := Pin(id, at, title, description, now);
      PinList.AppendAddsOneAtEnd(s.pins, pin);
      s.(pins := PinList.Append(s.pins, pin), newPinPosition := None, isAddingPin := false)
  }

  /** `handlePinUpdate`: replaced by id, length and order kept, selection cleared. */
  function PinUpdate(s: State, updated: Pin): (r: State)
    ensures |r.pins| == |s.pins|
    ensures Ids(r.pins) == Ids(s.pins)
    ensures forall i :: 0 <= i < |s.pins| && s.pins[i].id != updated.id ==> r.pins[i] == s.pins[i]
    ensures forall i :: 0 <= i < |s.pins| && s.pins[i].id == updated.id ==> r.pins[i] == updated
    ensures r.selectedPin.None?
    ensures r == s.(pins := r.pins, selectedPin := None)
  {
    PinList.ReplaceKeepsIds(s.pins, updated);
    s.(pins := PinList.ReplaceById(s.pins, updated), selectedPin := None)
  }

  /** `handlePinDelete`: the id is filtered out and the selection cleared. */
  function PinDelete(s: State, id: string): (r: State)
    ensures forall p :: p in r.pins <==> p in s.pins && p.id != id
    ensures Seqs.IsSubsequence(r.pins, s.pins)
    ensures |r.pins| == |s.pins| - |Seqs.Filter(p => PinList.MatchesId(id, p), s.pins)|
    ensures !HasId(s.pins, id) ==> r.pins == s.pins
    ensures r.selectedPin.None?
    ensures r == s.(pins := r.pins, selectedPin := None)
  {
    s.(pins := PinList.RemoveById(s.pins, id), selectedPin := None)
  }

  /** A click on a pin marker selects that pin; the marker stops the click,
      so `handleMapClick` does not see it. */
  function SelectPin(s: State, pin: Pin): (r: State)
    ensures r.selectedPin == Some(pin)
    ensures r.(selectedPin := s.selectedPin) == s
  {
    s.(selectedPin := Some(pin))
  }

  /** `handlePinCancel`: both the pending position and the selection are cleared. */
  function PinCancel(s: State): (r: State)
    ensures r.newPinPosition.None? && r.selectedPin.None?
    ensures r == s.(newPinPosition := None, selectedPin := None)
  {
    s.(newPinPosition := None, selectedPin := None)
  }

  /** The save effect: the list is written only when `pins.length > 0`. There
      is no mount flag here; the guard is also what keeps the first,
      still-empty render from overwriting the stored list. */
  function PersistEffect(pins: seq<Pin>, store: Storage.Store): (r: Storage.Store)
    ensures pins == [] ==> r == store
    ensures pins != [] ==> Storage.Load(r, Storage.MapKey) == pins
  {
    Storage.SaveIfNonEmpty(store, Storage.MapKey, pins)
  }

  /** The same state seen as a `SimpleMapPage` state (`zoom` as `scale`). */
  function AsSimple(s: State): SimpleMapPage.State
  {
    SimpleMapPage.State(s.pins, s.isAddingPin, s.newPinPosition, s.selectedPin,
                        s.isDragging, s.dragStart, s.position, s.zoom)
  }

  /** The two variants share their handlers: each `CustomMap` handler does
      what the `SimpleMapPage` handler does with the map element mounted. */
  lemma AgreesWithSimpleMapPage(s: State, rect: Viewport.Rect, client: Point, p: Pin,
                                title: string, description: string, id: string, now: int)
    requires s.isAddingPin && !s.isDragging ==> rect.HasArea()
    ensures AsSimple(MapClick(s, rect, client)) == SimpleMapPage.MapClick(AsSimple(s), true, rect, client)
    ensures AsSimple(MouseDown(s, client)) == SimpleMapPage.MouseDown(AsSimple(s), client)
    ensures AsSimple(MouseMove(s, client)) == SimpleMapPage.MouseMove(AsSimple(s), client)
    ensures AsSimple(MouseUp(s)) == SimpleMapPage.MouseUp(AsSimple(s))
    ensures AsSimple(ZoomIn(s)) == SimpleMapPage.ZoomIn(AsSimple(s))
    ensures AsSimple(ZoomOut(s)) == SimpleMapPage.ZoomOut(AsSimple(s))
    ensures AsSimple(PinSubmit(s, title, description, id, now))
         == SimpleMapPage.PinSubmit(AsSimple(s), title, description, id, now)
    ensures AsSimple(PinUpdate(s, p)) == SimpleMapPage.PinUpdate(AsSimple(s), p)
    ensures AsSimple(PinDelete(s, id)) == SimpleMapPage.PinDelete(AsSimple(s), id)
    ensures AsSimple(PinCancel(s)) == SimpleMapPage.PinCancel(AsSimple(s))
    ensures AsSimple(SelectPin(s, p)) == SimpleMapPage.SelectPin(AsSimple(s), p)
  {
  }
}

=== FILE: map_container.dfy ===
/** `MapContainer`: a map that does not own the pin list. It receives the
    pins and `isAddingPin` as props and forwards every list change to the
    parent's `onAddPin`, `onUpdatePin` and `onDeletePin` callbacks; it owns
    only the pending position and the selection. A handler therefore yields
    the new local state and the callback it invokes, if any. */
module MapContainer {
  import opened Wrappers
  import opened Pins
  import PinList
  import Viewport
  import SimpleMapPage

  datatype State = State(newPinPosition: Option<Point>, selectedPin: Option<Pin>)

  const Initial := State(None, None)

  /** A call to one of the parent's callbacks. */
  datatype Request = AddPin(pin: Pin) | UpdatePin(pin: Pin) | DeletePin(id: string)

  datatype Outcome = Outcome(state: State, request: Option<Request>)

  /** `handleMapClick`: in adding mode with the map element mounted, the
      clicked point in percent becomes the pending position. There is no drag
      guard in this variant. */
  function MapClick(s: State, isAddingPin: bool, mapMounted: bool, rect: Viewport.Rect, client: Point): (r: State)
    requires isAddingPin && mapMounted ==> rect.HasArea()
    ensures !(isAddingPin && mapMounted) ==> r == s
    ensures isAddingPin && mapMounted ==>
      && r.newPinPosition.Some?
      && Viewport.PercentToScreen(rect, r.newPinPosition.value) == client
      && r.selectedPin == s.selectedPin
  {
    if !isAddingPin || !mapMounted then s
    else
      Viewport.ClickThenProject(rect, client);
      s.(newPinPosition := Some(Viewport.ClickToPercent(rect, client)))
  }

  /** `handlePinSubmit`: a no-op without a pending position; otherwise exactly
      one pin carrying that position goes to `onAddPin` and the pending
      position is cleared. Adding mode is the parent's and is left as it is. */
  function PinSubmit(s: State, title: string, description: string, id: string, now: int): (r: Outcome)
    ensures s.newPinPosition.None? ==> r == Outcome(s, None)
    ensures s.newPinPosition.Some? ==>
      && r.request == Some(AddPin(Pin(id, s.newPinPosition.value, title, description, now)))
      && r.state == State(None, s.selectedPin)
  {
    match s.newPinPosition
    case None => Outcome(s, None)
    case Some(at) => Outcome(s.(newPinPosition := None), Some(AddPin(Pin(id, at, title, description, now))))
  }

  /** `handlePinUpdate`: the pin goes to `onUpdatePin` unchanged and the selection is cleared. */
  function PinUpdate(s: State, pin: Pin): (r: Outcome)
    ensures r.request == Some(UpdatePin(pin))
    ensures r.state == State(s.newPinPosition, None)
  {
    Outcome(s.(selectedPin := None), Some(UpdatePin(pin)))
  }

  /** `handlePinDelete`: the id goes to `onDeletePin` unchanged and the selection is cleared. */
  function PinDelete(s: State, id: string): (r: Outcome)
    ensures r.request == Some(DeletePin(id))
    ensures r.state == State(s.newPinPosition, None)
  {
    Outcome(s.(selectedPin := None), Some(DeletePin(id)))
  }

  /** `handlePinCancel`: both the pending position and the selection are cleared. */
  function PinCancel(s: State): (r: Outcome)
    ensures r == Outcome(State(None, None), None)
  {
    Outcome(s.(newPinPosition := None, selectedPin := None), None)
  }

  /** A click on a pin marker selects that pin. */
  function SelectPin(s: State, pin: Pin): (r: State)
    ensures r.selectedPin == Some(pin) && r.newPinPosition == s.newPinPosition
  {
    s.(selectedPin := Some(pin))
  }

  datatype Forms = Forms(addForm: bool, editForm: bool)

  /** Which form is rendered: the add form while a position is pending, the
      edit form for a selected pin only when no position is pending. */
  function VisibleForms(s: State): (f: Forms)
    ensures !(f.addForm && f.editForm)
    ensures f.editForm <==> s.selectedPin.Some? && s.newPinPosition.None?
    ensures f.addForm <==> s.newPinPosition.Some?
  {
    Forms(s.newPinPosition.Some?, s.selectedPin.Some? && !s.newPinPosition.Some?)
  }

  /** The Cancel button of the add form, as written. The form is rendered
      inside the map element and nothing stops the click there, so
      `handlePinCancel` runs and then the click bubbles on to
      `handleMapClick`; React applies both updates in that order. In adding
      mode the bubbled click sets a new pending position, so the add form
      stays open, its marker moved to the button. */
  function CancelClicked(s: State, isAddingPin: bool, mapMounted: bool, rect: Viewport.Rect, client: Point): (r: State)
    requires isAddingPin && mapMounted ==> rect.HasArea()
    ensures r.selectedPin.None?
    ensures !(isAddingPin && mapMounted) ==> r == Initial
    ensures isAddingPin && mapMounted ==>
      && VisibleForms(r).addForm
      && Viewport.PercentToScreen(rect, r.newPinPosition.value) == client
  {
    MapClick(PinCancel(s).state, isAddingPin, mapMounted, rect, client)
  }

  /** The Cancel button as evidently intended: the click stops at the form,
      so Cancel closes whichever form was open, in adding mode too. */
  function CancelClickedIntended(s: State): (r: State)
    ensures !VisibleForms(r).addForm && !VisibleForms(r).editForm
    ensures VisibleForms(s).addForm ==> VisibleForms(r) != VisibleForms(s)
  {
    PinCancel(s).state
  }

  /** A click on any other part of the add form, as written: its fields and
      its Add button sit inside the map element too, so in adding mode the
      click bubbles into `handleMapClick` and moves the pending marker to
      the clicked spot of the form. */
  lemma AddFormClickMovesMarker(s: State, rect: Viewport.Rect, client: Point)
    requires VisibleForms(s).addForm && rect.HasArea()
    ensures var r := MapClick(s, true, true, rect, client);
            && VisibleForms(r) == VisibleForms(s)
            && Viewport.PercentToScreen(rect, r.newPinPosition.value) == client
            && r.selectedPin == s.selectedPin
  {
  }

  /** A click anywhere in the edit form, as written: once adding mode is
      switched on while a pin is being edited, the click bubbles into
      `handleMapClick`, a position becomes pending, and the edit form gives
      way to the add form although the pin stays selected. */
  lemma EditFormClickSwitchesToAdd(s: State, rect: Viewport.Rect, client: Point)
    requires VisibleForms(s).editForm && rect.HasArea()
    ensures var r := MapClick(s, true, true, rect, client);
            && VisibleForms(r) == Forms(true, false)
            && r.selectedPin == s.selectedPin
  {
  }

  /** A click on the map element as evidently intended: a click inside
      either form stops there and changes nothing, so the shown form stays
      as it was; any other click is `handleMapClick`. */
  function ClickStoppedAtForms(s: State, inForm: bool, isAddingPin: bool, mapMounted: bool,
                               rect: Viewport.Rect, client: Point): (r: State)
    requires isAddingPin && mapMounted ==> rect.HasArea()
    ensures inForm ==> VisibleForms(r) == VisibleForms(s) && r.selectedPin == s.selectedPin
    ensures inForm && VisibleForms(s).editForm ==> VisibleForms(r).editForm
    ensures !inForm ==> r == MapClick(s, isAddingPin, mapMounted, rect, client)
  {
    if inForm then s else MapClick(s, isAddingPin, mapMounted, rect, client)
  }

  /** The list change a parent makes for a request when it uses the same
      list reducer as the self-contained variants. */
  function Apply(pins: seq<Pin>, request: Option<Request>): seq<Pin>
  {
    match request
    case None => pins
    case Some(AddPin(p)) => PinList.Append(pins, p)
    case Some(UpdatePin(p)) => PinList.ReplaceById(pins, p)
    case Some(DeletePin(id)) => PinList.RemoveById(pins, id)
  }

  /** With such a parent, the forwarded requests change the list exactly as
      `SimpleMapPage` changes its own, and the pending position and selection
      end up the same. */
  lemma ForwardingAgreesWithSimpleMapPage(s: State, page: SimpleMapPage.State, p: Pin,
                                         title: string, description: string, id: string, now: int)
    requires page.newPinPosition == s.newPinPosition && page.selectedPin == s.selectedPin
    ensures var o := PinSubmit(s, title, description, id, now);
            var q := SimpleMapPage.PinSubmit(page, title, description, id, now);
            Apply(page.pins, o.request) == q.pins && o.state == State(q.newPinPosition, q.selectedPin)
    ensures var o := PinUpdate(s, p);
            var q := SimpleMapPage.PinUpdate(page, p);
            Apply(page.pins, o.request) == q.pins && o.state == State(q.newPinPosition, q.selectedPin)
    ensures var o := PinDelete(s, id);
            var q := SimpleMapPage.PinDelete(page, id);
            Apply(page.pins, o.request) == q.pins && o.state == State(q.newPinPosition, q.selectedPin)
    ensures var o := PinCancel(s);
            var q := SimpleMapPage.PinCancel(page);
            Apply(page.pins, o.request) == q.pins && o.state == State(q.newPinPosition, q.selectedPin)
  {
  }

  /** The map element's image flags: `mapLoaded` and whether `mapError` is set. */
  datatype ImageFlags = ImageFlags(mapLoaded: bool, hasError: bool)

  const InitialFlags := ImageFlags(false, false)

  /** The three branches of the map element's content: the loader, the error
      notice, and the image with the markers and the forms. */
  datatype Content = Loading | Failed | Ready

  function ContentFor(f: ImageFlags): (c: Content)
    ensures c == Loading <==> !f.mapLoaded && !f.hasError
    ensures c == Failed <==> f.hasError
    ensures c == Ready <==> f.mapLoaded && !f.hasError
  {
    if !f.mapLoaded && !f.hasError then Loading
    else if f.hasError then Failed
    else Ready
  }

  /** What the `<img>` reports: `onLoad` or `onError`. */
  datatype ImageEvent = ImageLoaded | ImageFailed

  /** An image event as written: the `<img>` whose handlers set the flags is
      rendered only in the `Ready` branch, so an event reaches them only when
      the image is already shown. */
  function OnImage(f: ImageFlags, e: ImageEvent): (r: ImageFlags)
    ensures ContentFor(f) != Ready ==> r == f
    ensures ContentFor(f) == Ready && e == ImageLoaded ==> r == f
    ensures ContentFor(f) == Ready && e == ImageFailed ==> ContentFor(r) == Failed
  {
    if ContentFor(f) != Ready then f
    else match e
      case ImageLoaded => f.(mapLoaded := true)
      case ImageFailed => f.(hasError := true)
  }

  function RunImage(f: ImageFlags, events: seq<ImageEvent>): ImageFlags
    decreases |events|
  {
    if events == [] then f else RunImage(OnImage(f, events[0]), events[1..])
  }

  /** As written the loader never clears: starting from the initial flags,
      no sequence of image events changes them, so the image, the markers
      and both forms are never rendered. */
  lemma {:induction false} LoaderNeverClears(events: seq<ImageEvent>)
    ensures RunImage(InitialFlags, events) == InitialFlags
    ensures ContentFor(RunImage(InitialFlags, events)) == Loading
    decreases |events|
  {
    if events != [] {
      LoaderNeverClears(events[1..]);
    }
  }

  /** An image event as evidently intended: the `<img>` is mounted whatever
      the branch (the loader drawn over it), so its events always reach the
      handlers. */
  function OnImageIntended(f: ImageFlags, e: ImageEvent): (r: ImageFlags)
    ensures e == ImageLoaded ==> r.mapLoaded && r.hasError == f.hasError
    ensures e == ImageFailed ==> ContentFor(r) == Failed
  {
    match e
    case ImageLoaded => f.(mapLoaded := true)
    case ImageFailed => f.(hasError := true)
  }

  /** With the image always mounted, a successful load leaves the loader for
      the map, and a failed load shows the error notice. */
  lemma ImageLoadShowsMap()
    ensures ContentFor(OnImageIntended(InitialFlags, ImageLoaded)) == Ready
    ensures ContentFor(OnImageIntended(InitialFlags, ImageFailed)) == Failed
  {
  }
}

=== FILE: pin_form.dfy ===
/** The pin form used for both adding and editing: two text fields seeded
    from its props, a submit that is refused while the title is blank, and a
    left button that is Delete when editing with a delete handler and Cancel
    otherwise. */
module PinForm {
  import opened Wrappers
  import Text

  datatype Fields = Fields(title: string, description: string)

  /** The field state on first render: exactly the `title` and `description` props. */
  function Initial(title: string, description: string): (f: Fields)
    ensures f.title == title && f.description == description
  {
    Fields(title, description)
  }

  /** The title holds at least one character that `trim` would keep. */
  predicate HasContent(title: string)
  {
    exists k :: 0 <= k < |title| && !Text.IsWhitespace(title[k])
  }

  /** `handleSubmit`: the fields handed to `onSubmit`, untrimmed, or nothing
      when the trimmed title is empty. The description is never checked. */
  function Submit(f: Fields): (r: Option<Fields>)
    ensures r.Some? <==> HasContent(f.title)
    ensures r.Some? ==> r.value == f
  {
    if Text.Trim(f.title) != "" then Some(f) else None
  }

  /** A submission carrying a title is accepted whatever the description,
      the empty description included. */
  lemma DescriptionNeverChecked(title: string, d1: string, d2: string)
    ensures Submit(Fields(title, d1)).Some? == Submit(Fields(title, d2)).Some?
    ensures Submit(Fields(title, d1)).Some? == Submit(Fields(title, "")).Some?
  {
  }

  /** A title of white space only is refused, however long it is. */
  lemma BlankTitleRefused(f: Fields)
    requires forall k :: 0 <= k < |f.title| ==> Text.IsWhitespace(f.title[k])
    ensures Submit(f) == None
  {
  }

  datatype LeftButton = DeleteButton | CancelButton

  datatype Buttons = Buttons(left: LeftButton, extraCancel: bool, submitLabel: string)

  /** The button row: Delete on the left only when editing with a delete
      handler, a second Cancel beside submit when editing, and "Update Pin"
      or "Add Pin" on the submit button. */
  function ButtonsFor(isEditing: bool, hasOnDelete: bool): (b: Buttons)
    ensures b.left == DeleteButton <==> isEditing && hasOnDelete
    ensures b.extraCancel <==> isEditing
    ensures b.left == CancelButton || b.extraCancel
    ensures b.submitLabel == if isEditing then "Update Pin" else "Add Pin"
  {
    Buttons(
      if isEditing && hasOnDelete then DeleteButton else CancelButton,
      isEditing,
      (if isEditing then "Update" else "Add") + " Pin")
  }
}

=== FILE: pin_list.dfy ===
/** The pin-list reducer shared by the map variants: `[...pins, newPin]` on
    submit, `pins.map(pin => pin.id === updatedPin.id ? updatedPin : pin)` on
    update and `pins.filter(pin => pin.id !== id)` on delete. Ids are values
    handed in by the caller; nothing here assumes they are unique. */
module PinList {
  import opened Pins
  import Seqs

  /** The list with `pin` appended at the end. */
  function Append(pins: seq<Pin>, pin: Pin): (r: seq<Pin>)
  {
    pins + [pin]
  }

  /** Appending adds exactly one pin, at the end, and leaves earlier pins as they were. */
  lemma AppendAddsOneAtEnd(pins: seq<Pin>, pin: Pin)
    ensures |Append(pins, pin)| == |pins| + 1
    ensures Append(pins, pin)[..|pins|] == pins
    ensures Append(pins, pin)[|pins|] == pin
    ensures multiset(Append(pins, pin)) == multiset(pins) + multiset{pin}
  {
  }

  /** Every pin whose id matches `updated.id` is replaced by `updated`. */
  function ReplaceById(pins: seq<Pin>, updated: Pin): (r: seq<Pin>)
    ensures |r| == |pins|
    ensures forall i :: 0 <= i < |pins| ==> r[i] == if pins[i].id == updated.id then updated else pins[i]
  {
    if pins == [] then []
    else [if pins[0].id == updated.id then updated else pins[0]] + ReplaceById(pins[1..], updated)
  }

  /** Replacing keeps every id in place, so the list's identity order is unchanged. */
  lemma ReplaceKeepsIds(pins: seq<Pin>, updated: Pin)
    ensures Ids(ReplaceById(pins, updated)) == Ids(pins)
  {
  }

  /** Replacing by an id that no pin carries leaves the list as it was. */
  lemma ReplaceAbsentIsIdentity(pins: seq<Pin>, updated: Pin)
    requires !HasId(pins, updated.id)
    ensures ReplaceById(pins, updated) == pins
  {
  }

  /** The replacement is present afterwards exactly when some pin had its id. */
  lemma ReplacePresentIffMatched(pins: seq<Pin>, updated: Pin)
    ensures updated in ReplaceById(pins, updated) <==> HasId(pins, updated.id)
  {
    var r := ReplaceById(pins, updated);
    if HasId(pins, updated.id) {
      var i :| 0 <= i < |pins| && pins[i].id == updated.id;
      assert r[i] == updated;
    }
  }

  /** Replacing twice with the same pin is replacing once. */
  lemma ReplaceIdempotent(pins: seq<Pin>, updated: Pin)
    ensures ReplaceById(ReplaceById(pins, updated), updated) == ReplaceById(pins, updated)
  {
  }

  predicate KeepUnlessId(id: string, p: Pin)
  {
    p.id != id
  }

  predicate MatchesId(id: string, p: Pin)
  {
    p.id == id
  }

  /** The pins whose id is not `id`, in their original order. */
  function RemoveById(pins: seq<Pin>, id: string): (r: seq<Pin>)
    ensures forall p :: p in r <==> p in pins && p.id != id
    ensures Seqs.IsSubsequence(r, pins)
    ensures |r| == |pins| - |Seqs.Filter(p => MatchesId(id, p), pins)|
    ensures !HasId(pins, id) ==> r == pins
  {
    Seqs.FilterComplement(p => KeepUnlessId(id, p), p => MatchesId(id, p), pins);
    FilterAbsentKeepsAll(pins, id);
    Seqs.Filter(p => KeepUnlessId(id, p), pins)
  }

  /** With no pin carrying `id`, the filter keeps every pin. */
  lemma FilterAbsentKeepsAll(pins: seq<Pin>, id: string)
    ensures !HasId(pins, id) ==> Seqs.Filter(p => KeepUnlessId(id, p), pins) == pins
  {
    if !HasId(pins, id) {
      Seqs.FilterKeepsAll(p => KeepUnlessId(id, p), pins);
    }
  }

  /** Deleting an id that no pin carries leaves the list as it was. */
  lemma RemoveAbsentIsIdentity(pins: seq<Pin>, id: string)
    requires !HasId(pins, id)
    ensures RemoveById(pins, id) == pins
  {
  }

  /** Deleting an id that some pin carries shortens the list. */
  lemma RemovePresentShrinks(pins: seq<Pin>, id: string)
    requires HasId(pins, id)
    ensures |RemoveById(pins, id)| < |pins|
  {
    var i :| 0 <= i < |pins| && pins[i].id == id;
    assert pins[i] in Seqs.Filter(p => MatchesId(id, p), pins);
  }

  /** Deleting the same id twice is deleting it once. */
  lemma RemoveIdempotent(pins: seq<Pin>, id: string)
    ensures RemoveById(RemoveById(pins, id), id) == RemoveById(pins, id)
  {
    var once := RemoveById(pins, id);
    assert !HasId(once, id) by {
      forall i | 0 <= i < |once| ensures once[i].id != id {
        assert once[i] in once;
      }
    }
    RemoveAbsentIsIdentity(once, id);
  }

  /** Deleting the id of a freshly appended pin, when no earlier pin carried
      that id, gives back the list before the append. */
  lemma RemoveUndoesAppend(pins: seq<Pin>, pin: Pin)
    requires !HasId(pins, pin.id)
    ensures RemoveById(Append(pins, pin), pin.id) == pins
  {
    var keep := p => KeepUnlessId(pin.id, p);
    Seqs.FilterAppend(keep, pins, pin);
    RemoveAbsentIsIdentity(pins, pin.id);
  }

  /** Deleting never touches the pins it keeps: after a delete, each remaining
      pin is a pin of the original list, and updating a pin then deleting its
      id is the same as deleting it. */
  lemma RemoveAfterReplace(pins: seq<Pin>, updated: Pin)
    ensures RemoveById(ReplaceById(pins, updated), updated.id) == RemoveById(pins, updated.id)
  {
    ReplaceThenRemove(pins, updated);
  }

  lemma {:induction false} ReplaceThenRemove(pins: seq<Pin>, updated: Pin)
    ensures Seqs.Filter(p => KeepUnlessId(updated.id, p), ReplaceById(pins, updated))
         == Seqs.Filter(p => KeepUnlessId(updated.id, p), pins)
    decreases |pins|
  {
    if pins != [] {
      ReplaceThenRemove(pins[1..], updated);
      var r := ReplaceById(pins, updated);
      assert r[1..] == ReplaceById(pins[1..], updated);
    }
  }
}

=== FILE: pin_list_view.dfy ===
/** `PinList`: the searchable list of pins handed in as a prop, newest first,
    with a delete button on each row that forwards that row's pin id. */
module PinListView {
  import opened Pins
  import PinList
  import Search

  datatype View = View(count: nat, rows: seq<Pin>, placeholder: Search.Placeholder)

  /** The header counts every pin, not only the ones the search keeps; the
      rows are a newest-first copy of the search result. */
  function Render(pins: seq<Pin>, query: string): (v: View)
    ensures v.count == |pins|
    ensures Search.Descending(v.rows)
    ensures forall p :: p in v.rows <==> p in pins && Search.Matches(p, query)
    ensures multiset(v.rows) == multiset(Search.SearchPins(pins, query))
    ensures |v.rows| <= v.count
  {
    var found := Search.SearchPins(pins, query);
    var rows := Search.SortByRecent(found);
    Search.SortKeepsPins(found);
    View(|pins|, rows, Search.PlaceholderFor(rows, query))
  }

  /** The delete button of row `i`: `onPinDelete` receives that row's pin id. */
  function DeleteClicked(v: View, i: nat): (id: string)
    requires i < |v.rows|
    ensures id == v.rows[i].id
    ensures exists j :: 0 <= j < |v.rows| && v.rows[j].id == id
  {
    v.rows[i].id
  }

  /** When the parent deletes the forwarded id with the shared list reducer,
      the row's pin is gone from the list, which gets shorter. */
  lemma DeleteRemovesRowPin(pins: seq<Pin>, query: string, i: nat)
    requires i < |Render(pins, query).rows|
    ensures var v := Render(pins, query);
            var after := PinList.RemoveById(pins, DeleteClicked(v, i));
            v.rows[i] !in after && |after| < |pins|
  {
    var v := Render(pins, query);
    assert v.rows[i] in v.rows;
    var k :| 0 <= k < |pins| && pins[k] == v.rows[i];
    PinList.RemovePresentShrinks(pins, v.rows[i].id);
  }
}

=== FILE: pins.dfy ===
/** The one persisted entity, shaped like the `Pin` interface of `types.tsx`:
    an id, a position in percent of the map image, a title, a description and
    a creation time. The creation time is an ISO-8601 string in the source;
    every consumer turns it into milliseconds since the epoch, which is what
    is kept here. */
module Pins {

  /** A pair of coordinates: percentages of the image for a pin, screen pixels
      for the pointer and for the pan offset. */
  datatype Point = Point(x: real, y: real) {

    function Plus(o: Point): Point {
      Point(x + o.x, y + o.y)
    }

    function Minus(o: Point): Point {
      Point(x - o.x, y - o.y)
    }
  }

  const Origin := Point(0.0, 0.0)

  datatype Pin = Pin(id: string, position: Point, title: string, description: string, createdAt: int)

  /** The ids of `pins`, in list order. */
  function Ids(pins: seq<Pin>): (r: seq<string>)
    ensures |r| == |pins|
    ensures forall i :: 0 <= i < |pins| ==> r[i] == pins[i].id
  {
    seq(|pins|, i requires 0 <= i < |pins| => pins[i].id)
  }

  /** Some pin in `pins` carries `id`. */
  predicate HasId(pins: seq<Pin>, id: string)
  {
    exists i :: 0 <= i < |pins| && pins[i].id == id
  }
}

=== FILE: search.dfy ===
/** The view functions of the sidebars: the search box filter
    (`searchQuery ? pins.filter(...) : pins`) and the most-recent-first
    ordering (`[...filteredPins].sort((a, b) => b.createdAt - a.createdAt)`). */
module Search {
  import opened Pins
  import Seqs
  import Text

  /** The title or the description contains the query, ignoring ASCII case. */
  predicate Matches(p: Pin, query: string)
  {
    Text.Contains(Text.Lower(p.title), Text.Lower(query))
    || Text.Contains(Text.Lower(p.description), Text.Lower(query))
  }

  /** The search box: an empty query shows every pin; any other keeps, in
      order, the pins it matches. */
  function SearchPins(pins: seq<Pin>, query: string): (r: seq<Pin>)
    ensures query == "" ==> r == pins
    ensures forall p :: p in r <==> p in pins && Matches(p, query)
    ensures Seqs.IsSubsequence(r, pins)
    ensures |r| <= |pins|
  {
    if query == "" then
      EmptyQueryMatchesAll(pins);
      Seqs.IsSubsequenceReflexive(pins);
      pins
    else
      Seqs.Filter(p => Matches(p, query), pins)
  }

  /** Every pin matches the empty query, since every string contains the
      empty string: the short cut for an empty query agrees with the filter. */
  lemma EmptyQueryMatchesAll(pins: seq<Pin>)
    ensures forall p :: Matches(p, "")
    ensures Seqs.Filter(p => Matches(p, ""), pins) == pins
  {
    forall p: Pin ensures Matches(p, "") {
      Text.ContainsEmpty(Text.Lower(p.title));
    }
    Seqs.FilterKeepsAll(p => Matches(p, ""), pins);
  }

  /** Each pin shown is shown as often as it occurs in the list, and a pin
      that does not match is not shown at all. */
  lemma SearchKeepsOccurrences(pins: seq<Pin>, query: string)
    ensures forall p :: multiset(SearchPins(pins, query))[p] == if Matches(p, query) then multiset(pins)[p] else 0
  {
    if query == "" {
      EmptyQueryMatchesAll(pins);
    } else {
      Seqs.FilterMultiset(p => Matches(p, query), pins);
    }
  }

  /** The search ignores case: a query and its lower-case form select the same pins. */
  lemma SearchIgnoresCase(pins: seq<Pin>, query: string)
    ensures SearchPins(pins, query) == SearchPins(pins, Text.Lower(query))
  {
    Text.LowerIdempotent(query);
    if query != "" {
      assert Text.Lower(query) != "" by {
        assert |Text.Lower(query)| == |query|;
      }
      forall p ensures Matches(p, query) == Matches(p, Text.Lower(query)) {
      }
      Seqs.FilterExtensional(p => Matches(p, query), p => Matches(p, Text.Lower(query)), pins);
    }
  }

  /** Searching the result of a search with the same query changes nothing. */
  lemma SearchIdempotent(pins: seq<Pin>, query: string)
    ensures SearchPins(SearchPins(pins, query), query) == SearchPins(pins, query)
  {
    if query != "" {
      Seqs.FilterKeepsAll(p => Matches(p, query), SearchPins(pins, query));
    }
  }

  /** Most recent first: creation times never increase along the list. */
  predicate Descending(pins: seq<Pin>)
  {
    forall i, j :: 0 <= i < j < |pins| ==> pins[i].createdAt >= pins[j].createdAt
  }

  /** The pins created at time `t`, in list order. */
  function CreatedAt(pins: seq<Pin>, t: int): seq<Pin>
  {
    if pins == [] then []
    else (if pins[0].createdAt == t then [pins[0]] else []) + CreatedAt(pins[1..], t)
  }

  /** The pins of `[x] + s` created at `t`: `x` if it was, then those of `s`. */
  lemma CreatedAtCons(x: Pin, s: seq<Pin>, t: int)
    ensures CreatedAt([x] + s, t) == (if x.createdAt == t then [x] else []) + CreatedAt(s, t)
  {
    assert ([x] + s)[1..] == s;
  }

  /** A pin no older than every pin of a newest-first list can go in front of it. */
  lemma DescendingCons(x: Pin, s: seq<Pin>)
    requires Descending(s)
    requires forall q :: q in s ==> q.createdAt <= x.createdAt
    ensures Descending([x] + s)
  {
    forall i, j | 0 <= i < j < |[x] + s| ensures ([x] + s)[i].createdAt >= ([x] + s)[j].createdAt {
      if i == 0 {
        assert ([x] + s)[j] == s[j - 1];
        assert s[j - 1] in s;
      } else {
        assert ([x] + s)[i] == s[i - 1] && ([x] + s)[j] == s[j - 1];
      }
    }
  }

  /** Insert `p` before the first pin that is not newer than it; `p` therefore
      lands before any pin created at the same time. */
  function InsertByRecent(p: Pin, sorted: seq<Pin>): (r: seq<Pin>)
    requires Descending(sorted)
    ensures Descending(r)
    ensures multiset(r) == multiset(sorted) + multiset{p}
    ensures forall t :: CreatedAt(r, t) == if p.createdAt == t then [p] + CreatedAt(sorted, t) else CreatedAt(sorted, t)
  {
    if sorted == [] || sorted[0].createdAt <= p.createdAt then
      InsertFront(p, sorted);
      [p] + sorted
    else
      var rest := InsertByRecent(p, sorted[1..]);
      InsertBehind(p, sorted, rest);
      [sorted[0]] + rest
  }

  /** The front case of `InsertByRecent`. */
  lemma InsertFront(p: Pin, sorted: seq<Pin>)
    requires Descending(sorted)
    requires sorted == [] || sorted[0].createdAt <= p.createdAt
    ensures Descending([p] + sorted)
    ensures forall t :: CreatedAt([p] + sorted, t) == if p.createdAt == t then [p] + CreatedAt(sorted, t) else CreatedAt(sorted, t)
  {
    forall t ensures CreatedAt([p] + sorted, t) == if p.createdAt == t then [p] + CreatedAt(sorted, t) else CreatedAt(sorted, t) {
      CreatedAtCons(p, sorted, t);
    }
    forall q | q in sorted ensures q.createdAt <= p.createdAt {
      var k :| 0 <= k < |sorted| && sorted[k] == q;
    }
    DescendingCons(p, sorted);
  }

  /** The recursive case of `InsertByRecent`: `p` went into the tail. */
  lemma InsertBehind(p: Pin, sorted: seq<Pin>, rest: seq<Pin>)
    requires Descending(sorted) && sorted != [] && sorted[0].createdAt > p.createdAt
    requires Descending(rest)
    requires multiset(rest) == multiset(sorted[1..]) + multiset{p}
    requires forall t :: CreatedAt(rest, t) == if p.createdAt == t then [p] + CreatedAt(sorted[1..], t) else CreatedAt(sorted[1..], t)
    ensures Descending([sorted[0]] + rest)
    ensures multiset([sorted[0]] + rest) == multiset(sorted) + multiset{p}
    ensures forall t :: CreatedAt([sorted[0]] + rest, t) == if p.createdAt == t then [p] + CreatedAt(sorted, t) else CreatedAt(sorted, t)
  {
    assert sorted == [sorted[0]] + sorted[1..];
    InsertBehindOrder(p, sorted, rest);
    forall t ensures CreatedAt([sorted[0]] + rest, t) == if p.createdAt == t then [p] + CreatedAt(sorted, t) else CreatedAt(sorted, t) {
      InsertBehindTimes(p, sorted, rest, t);
    }
  }

  /** The head of `sorted` is no older than anything in the tail after `p` went in. */
  lemma InsertBehindOrder(p: Pin, sorted: seq<Pin>, rest: seq<Pin>)
    requires Descending(sorted) && sorted != [] && sorted[0].createdAt > p.createdAt
    requires Descending(rest)
    requires multiset(rest) == multiset(sorted[1..]) + multiset{p}
    ensures Descending([sorted[0]] + rest)
  {
    forall q | q in rest ensures q.createdAt <= sorted[0].createdAt {
      assert q in multiset(rest);
      if q != p {
        assert q in multiset(sorted[1..]);
        var k :| 0 <= k < |sorted[1..]| && sorted[1..][k] == q;
        assert sorted[k + 1] == q;
      }
    }
    DescendingCons(sorted[0], rest);
  }

  /** The pins created at one time `t` after `p` went into the tail. */
  lemma InsertBehindTimes(p: Pin, sorted: seq<Pin>, rest: seq<Pin>, t: int)
    requires sorted != [] && sorted[0].createdAt > p.createdAt
    requires CreatedAt(rest, t) == if p.createdAt == t then [p] + CreatedAt(sorted[1..], t) else CreatedAt(sorted[1..], t)
    ensures CreatedAt([sorted[0]] + rest, t) == if p.createdAt == t then [p] + CreatedAt(sorted, t) else CreatedAt(sorted, t)
  {
    var h := if sorted[0].createdAt == t then [sorted[0]] else [];
    var tail := CreatedAt(sorted[1..], t);
    CreatedAtCons(sorted[0], rest, t);
    assert CreatedAt(sorted, t) == h + tail;
    if p.createdAt == t {
      assert h == [];
      assert CreatedAt([sorted[0]] + rest, t) == CreatedAt(rest, t) == [p] + tail;
    } else {
      assert CreatedAt([sorted[0]] + rest, t) == h + CreatedAt(rest, t) == h + tail;
    }
  }


  /** `[...pins].sort(...)` with the newest-first comparator; the sort is
      stable, as `Array.prototype.sort` is. */
  function SortByRecent(pins: seq<Pin>): (r: seq<Pin>)
    ensures Descending(r)
    ensures multiset(r) == multiset(pins)
    ensures forall t :: CreatedAt(r, t) == CreatedAt(pins, t)
  {
    if pins == [] then []
    else
      assert pins == [pins[0]] + pins[1..];
      InsertByRecent(pins[0], SortByRecent(pins[1..]))
  }

  /** Sorting keeps the length and the set of pins shown. */
  lemma SortKeepsPins(pins: seq<Pin>)
    ensures |SortByRecent(pins)| == |pins|
    ensures forall p :: p in SortByRecent(pins) <==> p in pins
  {
    var r := SortByRecent(pins);
    assert |multiset(r)| == |multiset(pins)|;
    forall p ensures p in r <==> p in pins {
      assert p in r <==> p in multiset(r);
    }
  }

  /** A list that is already newest-first is left as it is. */
  lemma {:induction false} SortOfSortedIsIdentity(pins: seq<Pin>)
    requires Descending(pins)
    ensures SortByRecent(pins) == pins
    decreases |pins|
  {
    if pins != [] {
      assert Descending(pins[1..]);
      SortOfSortedIsIdentity(pins[1..]);
    }
  }

  /** Some pin of `s` was created at `t` exactly when the pins created at `t` are not none. */
  lemma {:induction false} CreatedAtNonEmpty(s: seq<Pin>, t: int)
    ensures CreatedAt(s, t) != [] <==> exists k :: 0 <= k < |s| && s[k].createdAt == t
    decreases |s|
  {
    if s != [] {
      CreatedAtNonEmpty(s[1..], t);
      if exists k :: 0 <= k < |s[1..]| && s[1..][k].createdAt == t {
        var k :| 0 <= k < |s[1..]| && s[1..][k].createdAt == t;
        assert s[k + 1].createdAt == t;
      }
      if exists k :: 0 <= k < |s| && s[k].createdAt == t {
        var k :| 0 <= k < |s| && s[k].createdAt == t;
        if k > 0 {
          assert s[1..][k - 1].createdAt == t;
        }
      }
    }
  }

  /** Lists that list the same pins for every creation time are both empty or both not. */
  lemma SameTimesSameEmptiness(a: seq<Pin>, b: seq<Pin>)
    requires forall t :: CreatedAt(a, t) == CreatedAt(b, t)
    ensures a == [] <==> b == []
  {
    if a != [] {
      assert CreatedAt(b, a[0].createdAt) == CreatedAt(a, a[0].createdAt) != [];
    }
    if b != [] {
      assert CreatedAt(a, b[0].createdAt) == CreatedAt(b, b[0].createdAt) != [];
    }
  }

  /** Two non-empty newest-first lists that list the same pins for every
      creation time start with the same pin, and their tails again list the
      same pins for every creation time. */
  lemma SameTimesSameHead(a: seq<Pin>, b: seq<Pin>)
    requires a != [] && b != []
    requires Descending(a) && Descending(b)
    requires forall t :: CreatedAt(a, t) == CreatedAt(b, t)
    ensures a[0] == b[0]
    ensures forall t :: CreatedAt(a[1..], t) == CreatedAt(b[1..], t)
  {
    var t0 := a[0].createdAt;
    var u0 := b[0].createdAt;
    HeadIsNewest(a, b, CreatedAt(a, u0));
    HeadIsNewest(b, a, CreatedAt(b, t0));
    SameFirstTime(a, b, CreatedAt(a, t0));
    forall t ensures CreatedAt(a[1..], t) == CreatedAt(b[1..], t) {
      SameTailTimes(a, b, t);
    }
  }

  /** The head of a non-empty newest-first list `a` is no older than any pin
      listed, in `a` too, at the creation time of the head of `b`. */
  lemma HeadIsNewest(a: seq<Pin>, b: seq<Pin>, c: seq<Pin>)
    requires a != [] && b != [] && Descending(a)
    requires c == CreatedAt(a, b[0].createdAt) == CreatedAt(b, b[0].createdAt)
    ensures b[0].createdAt <= a[0].createdAt
  {
    assert CreatedAt(b, b[0].createdAt) == [b[0]] + CreatedAt(b[1..], b[0].createdAt);
    CreatedAtNonEmpty(a, b[0].createdAt);
  }

  /** Two lists whose heads share a creation time, and which list the same
      pins `c` at that time, start with the same pin. */
  lemma SameFirstTime(a: seq<Pin>, b: seq<Pin>, c: seq<Pin>)
    requires a != [] && b != [] && a[0].createdAt == b[0].createdAt
    requires c == CreatedAt(a, a[0].createdAt) == CreatedAt(b, a[0].createdAt)
    ensures a[0] == b[0]
  {
    assert c == [a[0]] + CreatedAt(a[1..], a[0].createdAt);
    assert c == [b[0]] + CreatedAt(b[1..], a[0].createdAt);
    assert c[0] == a[0] && c[0] == b[0];
  }

  /** Dropping one equal head from lists with the same pins at time `t` keeps
      the pins at time `t` equal. */
  lemma SameTailTimes(a: seq<Pin>, b: seq<Pin>, t: int)
    requires a != [] && b != [] && a[0] == b[0]
    requires CreatedAt(a, t) == CreatedAt(b, t)
    ensures CreatedAt(a[1..], t) == CreatedAt(b[1..], t)
  {
    var h := if a[0].createdAt == t then [a[0]] else [];
    assert CreatedAt(a, t) == h + CreatedAt(a[1..], t);
    assert CreatedAt(b, t) == h + CreatedAt(b[1..], t);
    assert (h + CreatedAt(a[1..], t))[|h|..] == CreatedAt(a[1..], t);
    assert (h + CreatedAt(b[1..], t))[|h|..] == CreatedAt(b[1..], t);
  }

  /** Two newest-first lists that list the pins of every creation time in the
      same order are the same list. */
  lemma {:induction false} StableOrderUnique(a: seq<Pin>, b: seq<Pin>)
    requires Descending(a) && Descending(b)
    requires forall t :: CreatedAt(a, t) == CreatedAt(b, t)
    ensures a == b
    decreases |a|
  {
    SameTimesSameEmptiness(a, b);
    if a != [] {
      SameTimesSameHead(a, b);
      assert Descending(a[1..]) && Descending(b[1..]);
      StableOrderUnique(a[1..], b[1..]);
      assert a == [a[0]] + a[1..];
      assert b == [b[0]] + b[1..];
    }
  }

  /** The sort is the one stable newest-first ordering: any list that is
      newest first and keeps the pins of each creation time in their list
      order is exactly `SortByRecent(pins)`. */
  lemma SortIsTheStableOrdering(pins: seq<Pin>, r: seq<Pin>)
    requires Descending(r)
    requires forall t :: CreatedAt(r, t) == CreatedAt(pins, t)
    ensures r == SortByRecent(pins)
  {
    StableOrderUnique(r, SortByRecent(pins));
  }

  /** What a pin panel shows when its list is empty: "No pins match your
      search" while a query is typed, "No pins added yet" otherwise. */
  datatype Placeholder = NoMatch | NoPinsYet | Rows

  function PlaceholderFor(rows: seq<Pin>, query: string): Placeholder
  {
    if rows != [] then Rows else if query != "" then NoMatch else NoPinsYet
  }

  /** "No pins added yet" is shown exactly when there are no pins and no query:
      with pins present, an empty query lists them all. */
  lemma NoPinsYetMeansEmpty(pins: seq<Pin>, query: string)
    ensures PlaceholderFor(SearchPins(pins, query), query) == NoPinsYet <==> pins == [] && query == ""
  {
  }
}

=== FILE: seqs.dfy ===
/** Sequence helpers shared by the list reducers and the sidebar views:
    the order-preserving filter that `Array.prototype.filter` performs,
    and the subsequence relation that describes its output. */
module Seqs {

  /** `a` can be obtained from `b` by deleting elements, keeping the order of the rest. */
  predicate IsSubsequence<T(==)>(a: seq<T>, b: seq<T>)
    decreases |b|
  {
    if a == [] then true
    else if b == [] then false
    else (a[0] == b[0] && IsSubsequence(a[1..], b[1..])) || IsSubsequence(a, b[1..])
  }

  /** Keep, in order, the elements for which `keep` holds. */
  function Filter<T(!new)>(keep: T -> bool, s: seq<T>): (r: seq<T>)
    ensures |r| <= |s|
    ensures forall x :: x in r <==> x in s && keep(x)
    ensures IsSubsequence(r, s)
  {
    if s == [] then []
    else
      var rest := Filter(keep, s[1..]);
      assert s == [s[0]] + s[1..];
      if keep(s[0]) then [s[0]] + rest else rest
  }

  lemma {:induction false} IsSubsequenceReflexive<T>(s: seq<T>)
    ensures IsSubsequence(s, s)
    decreases |s|
  {
    if s != [] {
      IsSubsequenceReflexive(s[1..]);
    }
  }

  /** A filter whose predicate holds of every element returns its input. */
  lemma {:induction false} FilterKeepsAll<T(!new)>(keep: T -> bool, s: seq<T>)
    requires forall x :: x in s ==> keep(x)
    ensures Filter(keep, s) == s
    decreases |s|
  {
    if s != [] {
      assert forall x :: x in s[1..] ==> x in s;
      FilterKeepsAll(keep, s[1..]);
    }
  }

  /** Two predicates that agree on every element select the same elements. */
  lemma {:induction false} FilterExtensional<T(!new)>(f: T -> bool, g: T -> bool, s: seq<T>)
    requires forall x :: x in s ==> f(x) == g(x)
    ensures Filter(f, s) == Filter(g, s)
    decreases |s|
  {
    if s != [] {
      assert forall x :: x in s[1..] ==> x in s;
      FilterExtensional(f, g, s[1..]);
    }
  }

  /** Filtering by a predicate and by its negation splits the input's length. */
  lemma {:induction false} FilterComplement<T(!new)>(f: T -> bool, g: T -> bool, s: seq<T>)
    requires forall x :: x in s ==> g(x) == !f(x)
    ensures |Filter(f, s)| + |Filter(g, s)| == |s|
    decreases |s|
  {
    if s != [] {
      assert forall x :: x in s[1..] ==> x in s;
      FilterComplement(f, g, s[1..]);
    }
  }

  /** Filtering distributes over concatenation. */
  lemma {:induction false} FilterConcat<T(!new)>(keep: T -> bool, a: seq<T>, b: seq<T>)
    ensures Filter(keep, a + b) == Filter(keep, a) + Filter(keep, b)
    decreases |a|
  {
    if a == [] {
      assert a + b == b;
    } else {
      var ab := a + b;
      assert ab[0] == a[0];
      assert ab[1..] == a[1..] + b;
      FilterConcat(keep, a[1..], b);
    }
  }

  /** Filtering a sequence with one more element at the end. */
  lemma FilterAppend<T(!new)>(keep: T -> bool, s: seq<T>, x: T)
    ensures Filter(keep, s + [x]) == Filter(keep, s) + (if keep(x) then [x] else [])
  {
    FilterConcat(keep, s, [x]);
    assert [x][1..] == [];
  }

  /** The filter keeps every occurrence of a selected element and no occurrence of any other. */
  lemma {:induction false} FilterMultiset<T(!new)>(keep: T -> bool, s: seq<T>)
    ensures forall x :: multiset(Filter(keep, s))[x] == if keep(x) then multiset(s)[x] else 0
    decreases |s|
  {
    if s != [] {
      FilterMultiset(keep, s[1..]);
      assert s == [s[0]] + s[1..];
      assert multiset(s) == multiset{s[0]} + multiset(s[1..]);
    }
  }
}

=== FILE: sidebar.dfy ===
/** `Sidebar`: the pin panel of the map page. It reads its own copy of the
    pins from local storage once, at mount, under its own key; shows the
    search result newest first; and colours each pin by its category. Its
    pins carry a `category`, which the search and the sort ignore, so the
    pins are the shared `Pin` and the category is looked up on its own. */
module Sidebar {
  import opened Wrappers
  import opened Pins
  import Seqs
  import Storage
  import Search

  /** The key the sidebar reads; it is not the key the map variants write. */
  const SidebarKey: string := "image-map-pins"

  /** `PIN_CATEGORIES_COLORS`. */
  const CategoryColors: map<string, string> := map[
    "default" := "text-blue-500",
    "important" := "text-rose-500",
    "location" := "text-emerald-500",
    "favorite" := "text-amber-500",
    "landmark" := "text-slate-500",
    "camp" := "text-orange-500",
    "mission" := "text-violet-500",
    "settlement" := "text-indigo-500"]

  /** `PIN_CATEGORIES_COLORS[pin.category] || PIN_CATEGORIES_COLORS.default`,
      with a missing category (`undefined`) as `None` and a missing table entry
      as the empty, falsy string. Every table entry is non-empty, so a known
      category gets its own colour and anything else falls back to `default`. */
  function CategoryColor(category: Option<string>): (color: string)
    ensures color in CategoryColors.Values
    ensures category.Some? && category.value in CategoryColors ==> color == CategoryColors[category.value]
    ensures !(category.Some? && category.value in CategoryColors) ==> color == CategoryColors["default"]
  {
    var entry := if category.Some? && category.value in CategoryColors then CategoryColors[category.value] else "";
    if entry != "" then entry else CategoryColors["default"]
  }

  /** The pins read at mount. */
  function MountedPins(store: Storage.Store): (pins: seq<Pin>)
    ensures SidebarKey !in store ==> pins == []
  {
    Storage.Load(store, SidebarKey)
  }

  /** A save by the map variants never changes what the sidebar reads. */
  lemma MapSavesNotSeen(store: Storage.Store, pins: seq<Pin>)
    ensures MountedPins(Storage.Save(store, Storage.MapKey, pins)) == MountedPins(store)
  {
  }

  datatype View = View(count: nat, rows: seq<Pin>, placeholder: Search.Placeholder)

  /** The panel: the header counts every pin, the rows are the search result
      newest first, and the placeholder depends on the rows and the query. */
  function Render(pins: seq<Pin>, query: string): (v: View)
    ensures v.count == |pins|
    ensures Search.Descending(v.rows)
    ensures forall p :: p in v.rows <==> p in pins && Search.Matches(p, query)
    ensures multiset(v.rows) == multiset(Search.SearchPins(pins, query))
    ensures |v.rows| <= v.count
    ensures query == "" ==> multiset(v.rows) == multiset(pins)
  {
    var found := Search.SearchPins(pins, query);
    var rows := Search.SortByRecent(found);
    Search.SortKeepsPins(found);
    View(|pins|, rows, Search.PlaceholderFor(rows, query))
  }
}

=== FILE: simple_map_page.dfy ===
/** `SimpleMapPage`: the self-contained map page that owns the pin list, the
    adding mode, the pending position, the selection and the viewport
    (`position` is the pan offset, `scale` the zoom). Each handler is a pure
    transition on `State`. */
module SimpleMapPage {
  import opened Wrappers
  import opened Pins
  import PinList
  import Seqs
  import Viewport
  import Storage
  import PinForm

  datatype State = State(
    pins: seq<Pin>,
    isAddingPin: bool,
    newPinPosition: Option<Point>,
    selectedPin: Option<Pin>,
    isDragging: bool,
    dragStart: Point,
    position: Point,
    scale: real)

  /** The state on first render. */
  const Initial := State([], false, None, None, false, Origin, Origin, 1.0)

  /** Fields other than the pin list, the pending position and the selection. */
  predicate SameViewport(a: State, b: State)
  {
    a.isDragging == b.isDragging && a.dragStart == b.dragStart
    && a.position == b.position && a.scale == b.scale
  }

  /** A map click is interpreted only in adding mode, outside a drag, with the map element mounted. */
  predicate ClickAccepted(s: State, mapMounted: bool)
  {
    s.isAddingPin && !s.isDragging && mapMounted
  }

  /** `handleMapClick`: an accepted click makes the clicked point, in percent
      of the map element's rectangle, the pending position; nothing else
      changes. `PercentToScreen(rect, p) == client` says that `p` is the
      position of `client` in percent of `rect`. */
  function MapClick(s: State, mapMounted: bool, rect: Viewport.Rect, client: Point): (r: State)
    requires ClickAccepted(s, mapMounted) ==> rect.HasArea()
    ensures !ClickAccepted(s, mapMounted) ==> r == s
    ensures ClickAccepted(s, mapMounted) ==>
      && r.newPinPosition.Some?
      && Viewport.PercentToScreen(rect, r.newPinPosition.value) == client
      && r == s.(newPinPosition := r.newPinPosition)
  {
    if !ClickAccepted(s, mapMounted) then s
    else
      Viewport.ClickThenProject(rect, client);
      s.(newPinPosition := Some(Viewport.ClickToPercent(rect, client)))
  }

  /** The 2000 × 1500 map layer: placed at the centre of the map element and
      shifted back by half its size (`left-1/2 top-1/2` with
      `translate(-50%, -50%)`), then panned and zoomed. */
  function MapLayer(rect: Viewport.Rect): Viewport.Layer
  {
    Viewport.Layer(Point(rect.left + rect.width / 2.0 - 1000.0, rect.top + rect.height / 2.0 - 750.0),
                   Point(2000.0, 1500.0))
  }

  /** Where the marker of a pin at `p` percent is drawn on screen. */
  function MarkerAt(s: State, rect: Viewport.Rect, p: Point): Point
  {
    Viewport.MarkerScreen(MapLayer(rect), s.position, s.scale, p)
  }

  /** As written, the click is measured against the map element but the
      marker is drawn inside the layer: on a 1200 × 800 map element, unpanned
      and at scale 1, a click at (120, 80) is stored as (10, 10) and its
      marker drawn at (-200, -200), outside the element. */
  lemma ClickMissesMarker()
    ensures var s := Initial.(isAddingPin := true);
            var rect := Viewport.Rect(0.0, 0.0, 1200.0, 800.0);
            && MapClick(s, true, rect, Point(120.0, 80.0)) == s.(newPinPosition := Some(Point(10.0, 10.0)))
            && MarkerAt(s.(newPinPosition := Some(Point(10.0, 10.0))), rect, Point(10.0, 10.0)) == Point(-200.0, -200.0)
  {
    assert Viewport.ClickToPercent(Viewport.Rect(0.0, 0.0, 1200.0, 800.0), Point(120.0, 80.0)) == Point(10.0, 10.0);
  }

  /** `handleMapClick` as evidently intended: the click measured in percent
      of the panned and zoomed layer, so that its marker is drawn where the
      user clicked, at any pan offset and scale. */
  function MapClickOnLayer(s: State, mapMounted: bool, rect: Viewport.Rect, client: Point): (r: State)
    requires ClickAccepted(s, mapMounted) ==> s.scale > 0.0
    ensures !ClickAccepted(s, mapMounted) ==> r == s
    ensures ClickAccepted(s, mapMounted) ==>
      && r.newPinPosition.Some?
      && MarkerAt(r, rect, r.newPinPosition.value) == client
      && r == s.(newPinPosition := r.newPinPosition)
  {
    if !ClickAccepted(s, mapMounted) then s
    else
      var layer := MapLayer(rect);
      Viewport.ClickOnLayerLandsOnMarker(layer, s.position, s.scale, client);
      s.(newPinPosition := Some(Viewport.ClickToPercent(Viewport.LayerRect(layer, s.position, s.scale), client)))
  }

  /** `handleMouseDown`: ignored in adding mode; otherwise a drag starts,
      anchored so that the current offset is pointer minus anchor. */
  function MouseDown(s: State, client: Point): (r: State)
    ensures s.isAddingPin ==> r == s
    ensures !s.isAddingPin ==>
      && r.isDragging
      && r.dragStart.Plus(s.position) == client
      && r == s.(isDragging := true, dragStart := r.dragStart)
  {
    if s.isAddingPin then s
    else s.(isDragging := true, dragStart := Viewport.DragAnchor(client, s.position))
  }

  /** `handleMouseMove`: only while dragging, the offset follows the pointer. */
  function MouseMove(s: State, client: Point): (r: State)
    ensures !s.isDragging ==> r == s
    ensures s.isDragging ==>
      && s.dragStart.Plus(r.position) == client
      && r == s.(position := r.position)
  {
    if !s.isDragging then s
    else s.(position := Viewport.DragOffset(client, s.dragStart))
  }

  /** `handleMouseUp`, also bound to mouse-leave: the drag ends, unconditionally. */
  function MouseUp(s: State): (r: State)
    ensures !r.isDragging
    ensures r.(isDragging := s.isDragging) == s
  {
    s.(isDragging := false)
  }

  /** A press and a move back to the press point leave the offset as it was. */
  lemma DragBackRestoresOffset(s: State, client: Point)
    requires !s.isAddingPin
    ensures MouseMove(MouseDown(s, client), client).position == s.position
  {
    Viewport.DragFollowsPointer(s.position, client, client);
  }

  /** A press followed by moves pans by exactly the pointer's travel. */
  lemma DragPansByTravel(s: State, down: Point, now: Point)
    requires !s.isAddingPin
    ensures MouseMove(MouseDown(s, down), now).position == s.position.Plus(now.Minus(down))
  {
    Viewport.DragFollowsPointer(s.position, down, now);
  }

  /** `handleZoomIn`: one step in, capped at the largest scale. */
  function ZoomIn(s: State): (r: State)
    ensures r.scale == Viewport.ZoomIn(s.scale)
    ensures r.scale <= Viewport.MaxScale
    ensures Viewport.ScaleInRange(s.scale) ==> Viewport.ScaleInRange(r.scale)
    ensures r == s.(scale := r.scale)
  {
    s.(scale := Viewport.ZoomIn(s.scale))
  }

  /** `handleZoomOut`: one step out, floored at the smallest scale. */
  function ZoomOut(s: State): (r: State)
    ensures r.scale == Viewport.ZoomOut(s.scale)
    ensures Viewport.MinScale <= r.scale
    ensures Viewport.ScaleInRange(s.scale) ==> Viewport.ScaleInRange(r.scale)
    ensures r == s.(scale := r.scale)
  {
    s.(scale := Viewport.ZoomOut(s.scale))
  }

  /** `resetPosition`: back to the origin at scale 1, which lies within the zoom bounds. */
  function ResetPosition(s: State): (r: State)
    ensures r.position == Origin && Viewport.ScaleInRange(r.scale) && r.scale == 1.0
    ensures r == s.(position := Origin, scale := 1.0)
  {
    s.(position := Origin, scale := 1.0)
  }

  /** The header button: toggles adding mode. */
  function ToggleAdding(s: State): (r: State)
    ensures r.isAddingPin != s.isAddingPin
    ensures r.(isAddingPin := s.isAddingPin) == s
  {
    s.(isAddingPin := !s.isAddingPin)
  }

  /** A click on a pin marker selects that pin. */
  function SelectPin(s: State, pin: Pin): (r: State)
    ensures r.selectedPin == Some(pin)
    ensures r.(selectedPin := s.selectedPin) == s
  {
    s.(selectedPin := Some(pin))
  }

  /** `handlePinSubmit`: without a pending position nothing happens; otherwise
      a pin carrying that position is appended, the pending position is
      cleared and adding mode ends. `id` and `now` stand for
      `Date.now().toString()` and the creation time. */
  function PinSubmit(s: State, title: string, description: string, id: string, now: int): (r: State)
    ensures s.newPinPosition.None? ==> r == s
    ensures s.newPinPosition.Some? ==>
      && |r.pins| == |s.pins| + 1
      && r.pins[..|s.pins|] == s.pins
      && r.pins[|s.pins|] == Pin(id, s.newPinPosition.value, title, description, now)
      && r.newPinPosition.None? && !r.isAddingPin
      && r.selectedPin == s.selectedPin && SameViewport(r, s)
  {
    match s.newPinPosition
    case None => s
    case Some(at) =>
      var pin := Pin(id, at, title, description, now);
      PinList.AppendAddsOneAtEnd(s.pins, pin);
      s.(pins := PinList.Append(s.pins, pin), newPinPosition := None, isAddingPin := false)
  }

  /** `handlePinUpdate`: pins with the updated pin's id are replaced, the rest
      stay where they were, and the selection is cleared. */
  function PinUpdate(s: State, updated: Pin): (r: State)
    ensures |r.pins| == |s.pins|
    ensures forall i :: 0 <= i < |s.pins| && s.pins[i].id != updated.id ==> r.pins[i] == s.pins[i]
    ensures forall i :: 0 <= i < |s.pins| && s.pins[i].id == updated.id ==> r.pins[i] == updated
    ensures r.selectedPin.None?
    ensures r == s.(pins := r.pins, selectedPin := None)
  {
    s.(pins := PinList.ReplaceById(s.pins, updated), selectedPin := None)
  }

  /** `handlePinDelete`: exactly the pins carrying `id` go, in order, and the selection is cleared. */
  function PinDelete(s: State, id: string): (r: State)
    ensures forall p :: p in r.pins <==> p in s.pins && p.id != id
    ensures Seqs.IsSubsequence(r.pins, s.pins)
    ensures |r.pins| == |s.pins| - |Seqs.Filter(p => PinList.MatchesId(id, p), s.pins)|
    ensures !HasId(s.pins, id) ==> r.pins == s.pins
    ensures r.selectedPin.None?
    ensures r == s.(pins := r.pins, selectedPin := None)
  {
    s.(pins := PinList.RemoveById(s.pins, id), selectedPin := None)
  }

  /** `handlePinCancel`: the pending position and the selection are cleared. */
  function PinCancel(s: State): (r: State)
    ensures r.newPinPosition.None? && r.selectedPin.None?
    ensures r == s.(newPinPosition := None, selectedPin := None)
  {
    s.(newPinPosition := None, selectedPin := None)
  }

  /** The add form is shown while a position is pending. */
  predicate AddFormShown(s: State)
  {
    s.newPinPosition.Some?
  }

  /** The edit form is shown for a selected pin while no position is pending. */
  predicate EditFormShown(s: State)
  {
    s.selectedPin.Some? && s.newPinPosition.None?
  }

  /** The add form's submit: validated by the form, then `handlePinSubmit`. */
  function SubmitAddForm(s: State, f: PinForm.Fields, id: string, now: int): (r: State)
    ensures !PinForm.HasContent(f.title) ==> r == s
    ensures PinForm.HasContent(f.title) ==> r == PinSubmit(s, f.title, f.description, id, now)
  {
    match PinForm.Submit(f)
    case None => s
    case Some(g) => PinSubmit(s, g.title, g.description, id, now)
  }

  /** The edit form's submit: validated by the form, then `handlePinUpdate`
      with the selected pin's id, position and creation time kept. */
  function SubmitEditForm(s: State, f: PinForm.Fields): (r: State)
    requires EditFormShown(s)
    ensures !PinForm.HasContent(f.title) ==> r == s
    ensures PinForm.HasContent(f.title) ==>
      r == PinUpdate(s, s.selectedPin.value.(title := f.title, description := f.description))
  {
    match PinForm.Submit(f)
    case None => s
    case Some(g) => PinUpdate(s, s.selectedPin.value.(title := g.title, description := g.description))
  }

  /** The edit form's delete button: `handlePinDelete` with the selected pin's id. */
  function DeleteFromEditForm(s: State): (r: State)
    requires EditFormShown(s)
    ensures s.selectedPin.value !in r.pins
    ensures r == PinDelete(s, s.selectedPin.value.id)
  {
    PinDelete(s, s.selectedPin.value.id)
  }

  /** Submitting the edit form unchanged, for a pin of the list whose id no
      other pin shares, leaves the list as it was. */
  lemma EditUnchangedKeepsPins(s: State)
    requires EditFormShown(s)
    requires PinForm.HasContent(s.selectedPin.value.title)
    requires forall i :: 0 <= i < |s.pins| && s.pins[i].id == s.selectedPin.value.id ==> s.pins[i] == s.selectedPin.value
    ensures var sel := s.selectedPin.value;
            SubmitEditForm(s, PinForm.Initial(sel.title, sel.description)).pins == s.pins
  {
  }

  /** The edit form's fields after a render that goes from state `before`,
      with the form holding `fields`, to state `after`. The edit form has no
      `key`, so while it stays shown React keeps the same form instance, and
      its fields, even when a marker click changes the selected pin; only a
      form that appears starts from the selected pin's text. */
  function EditFields(before: State, fields: PinForm.Fields, after: State): (r: Option<PinForm.Fields>)
    ensures r.Some? <==> EditFormShown(after)
    ensures EditFormShown(before) && EditFormShown(after) ==> r == Some(fields)
    ensures !EditFormShown(before) && EditFormShown(after) ==>
      r == Some(PinForm.Fields(after.selectedPin.value.title, after.selectedPin.value.description))
  {
    if !EditFormShown(after) then None
    else if EditFormShown(before) then Some(fields)
    else
      var sel := after.selectedPin.value;
      Some(PinForm.Initial(sel.title, sel.description))
  }

  /** As written: with the edit form open on pin `a`, clicking the marker of
      pin `b` keeps `a`'s text in the fields, and saving writes it into `b`. */
  lemma SwitchingPinCarriesText(s: State, b: Pin)
    requires EditFormShown(s) && b in s.pins
    requires PinForm.HasContent(s.selectedPin.value.title)
    ensures var a := s.selectedPin.value;
            var t := SelectPin(s, b);
            var f := EditFields(s, PinForm.Initial(a.title, a.description), t);
            && f == Some(PinForm.Fields(a.title, a.description))
            && b.(title := a.title, description := a.description) in SubmitEditForm(t, f.value).pins
  {
    var a := s.selectedPin.value;
    var t := SelectPin(s, b);
    var k :| 0 <= k < |s.pins| && s.pins[k] == b;
    var r := SubmitEditForm(t, PinForm.Fields(a.title, a.description));
    assert r.pins[k] == b.(title := a.title, description := a.description);
  }

  /** The edit form's fields as evidently intended, as if the form were keyed
      by the selected pin's id: the fields survive a render only while the
      same pin stays selected. */
  function EditFieldsKeyed(before: State, fields: PinForm.Fields, after: State): (r: Option<PinForm.Fields>)
    ensures r.Some? <==> EditFormShown(after)
    ensures r.Some? && (!EditFormShown(before) || before.selectedPin.value.id != after.selectedPin.value.id) ==>
      r.value == PinForm.Fields(after.selectedPin.value.title, after.selectedPin.value.description)
  {
    if !EditFormShown(after) then None
    else if EditFormShown(before) && before.selectedPin.value.id == after.selectedPin.value.id then Some(fields)
    else
      var sel := after.selectedPin.value;
      Some(PinForm.Initial(sel.title, sel.description))
  }

  /** With keyed fields, switching to pin `b` and saving without typing
      leaves the list as it was, provided no other pin shares `b`'s id. */
  lemma SwitchingPinStartsFresh(s: State, b: Pin)
    requires EditFormShown(s) && s.selectedPin.value.id != b.id
    requires forall i :: 0 <= i < |s.pins| && s.pins[i].id == b.id ==> s.pins[i] == b
    ensures var a := s.selectedPin.value;
            var t := SelectPin(s, b);
            var f := EditFieldsKeyed(s, PinForm.Initial(a.title, a.description), t);
            && f == Some(PinForm.Fields(b.title, b.description))
            && SubmitEditForm(t, f.value).pins == s.pins
  {
    var t := SelectPin(s, b);
    var r := SubmitEditForm(t, PinForm.Fields(b.title, b.description));
    if PinForm.HasContent(b.title) {
      assert b.(title := b.title, description := b.description) == b;
      assert forall i :: 0 <= i < |s.pins| ==> r.pins[i] == s.pins[i];
    }
  }

  /** The save effect (after mount): the list is written under the map key
      only when it is non-empty. */
  function PersistEffect(isClient: bool, pins: seq<Pin>, store: Storage.Store): (r: Storage.Store)
    ensures !isClient || pins == [] ==> r == store
    ensures isClient && pins != [] ==> Storage.Load(r, Storage.MapKey) == pins
  {
    if !isClient then store else Storage.SaveIfNonEmpty(store, Storage.MapKey, pins)
  }

  /** The save effect as evidently intended: after mount every list is
      written, the empty one included. */
  function PersistEffectIntended(isClient: bool, pins: seq<Pin>, store: Storage.Store): (r: Storage.Store)
    ensures !isClient ==> r == store
    ensures isClient ==> Storage.Load(r, Storage.MapKey) == pins
  {
    Storage.SaveOnceLoaded(store, Storage.MapKey, pins, isClient)
  }

  /** Deleting the only pin: with the effect as written the next mount loads
      the deleted pin again; with the intended effect it loads no pins. */
  lemma DeleteOnlyPinThenReload(s: State, store: Storage.Store)
    requires |s.pins| == 1
    ensures var stored := PersistEffect(true, s.pins, store);
            var after := PinDelete(s, s.pins[0].id);
            && after.pins == []
            && Storage.Load(PersistEffect(true, after.pins, stored), Storage.MapKey) == s.pins
            && Storage.Load(PersistEffectIntended(true, after.pins, PersistEffectIntended(true, s.pins, store)), Storage.MapKey) == []
  {
    var after := PinDelete(s, s.pins[0].id);
    assert s.pins[0] in s.pins;
  }

  /** The user events the page reacts to. */
  datatype Event =
    | Click(mapMounted: bool, rect: Viewport.Rect, client: Point)
    | Down(client: Point)
    | Move(client: Point)
    | Up
    | ZoomInPressed
    | ZoomOutPressed
    | ResetPressed
    | AddPressed
    | PinClicked(pin: Pin)
    | Submitted(title: string, description: string, id: string, now: int)
    | Updated(pin: Pin)
    | Deleted(id: string)
    | Cancelled

  /** Click events are delivered on a map element of positive size. */
  predicate WellFormed(e: Event)
  {
    e.Click? ==> e.rect.HasArea()
  }

  function Step(s: State, e: Event): (r: State)
    requires WellFormed(e)
  {
    match e
    case Click(m, rect, c) => MapClick(s, m, rect, c)
    case Down(c) => MouseDown(s, c)
    case Move(c) => MouseMove(s, c)
    case Up => MouseUp(s)
    case ZoomInPressed => ZoomIn(s)
    case ZoomOutPressed => ZoomOut(s)
    case ResetPressed => ResetPosition(s)
    case AddPressed => ToggleAdding(s)
    case PinClicked(p) => SelectPin(s, p)
    case Submitted(t, d, id, now) => PinSubmit(s, t, d, id, now)
    case Updated(p) => PinUpdate(s, p)
    case Deleted(id) => PinDelete(s, id)
    case Cancelled => PinCancel(s)
  }

  /** The state after handling `events` in order. */
  function Run(s: State, events: seq<Event>): State
    requires forall i :: 0 <= i < |events| ==> WellFormed(events[i])
    decreases |events|
  {
    if events == [] then s else Run(Step(s, events[0]), events[1..])
  }

  /** One event changes the number of pins by +1 (a submit), by minus the
      number of pins with the deleted id (a delete), or not at all. */
  lemma StepPinCount(s: State, e: Event)
    requires WellFormed(e)
    ensures var n := |Step(s, e).pins|;
      if e.Submitted? && s.newPinPosition.Some? then n == |s.pins| + 1
      else if e.Deleted? then n == |s.pins| - |Seqs.Filter(p => PinList.MatchesId(e.id, p), s.pins)|
      else n == |s.pins|
  {
  }

  /** From a scale within [0.5, 2], every sequence of events keeps the scale within [0.5, 2]. */
  lemma {:induction false} ScaleStaysInRange(s: State, events: seq<Event>)
    requires forall i :: 0 <= i < |events| ==> WellFormed(events[i])
    requires Viewport.ScaleInRange(s.scale)
    ensures Viewport.ScaleInRange(Run(s, events).scale)
    decreases |events|
  {
    if events != [] {
      var next := Step(s, events[0]);
      assert Viewport.ScaleInRange(next.scale);
      ScaleStaysInRange(next, events[1..]);
    }
  }
}

=== FILE: simple_sidebar.dfy ===
/** `SimpleSidebar`: the pin panel of `SimpleMapPage`. It searches the pins
    handed in as a prop and shows the result in list order, unsorted. */
module SimpleSidebar {
  import opened Pins
  import Seqs
  import Search

  datatype View = View(count: nat, rows: seq<Pin>, placeholder: Search.Placeholder)

  /** The header counts every pin; the rows are the search result in the
      order of the list, each matching pin as often as it occurs. */
  function Render(pins: seq<Pin>, query: string): (v: View)
    ensures v.count == |pins|
    ensures Seqs.IsSubsequence(v.rows, pins)
    ensures forall p :: p in v.rows <==> p in pins && Search.Matches(p, query)
    ensures forall p :: multiset(v.rows)[p] == if Search.Matches(p, query) then multiset(pins)[p] else 0
    ensures |v.rows| <= v.count
    ensures query == "" ==> v.rows == pins
  {
    var rows := Search.SearchPins(pins, query);
    Search.SearchKeepsOccurrences(pins, query);
    View(|pins|, rows, Search.PlaceholderFor(rows, query))
  }
}

=== FILE: storage.dfy ===
/** Local storage as an opaque string-keyed store. The value under a key is
    either a serialized pin array or text that does not parse as one; the
    JSON encoding itself is abstracted into the `PinArray` constructor. */
module Storage {
  import opened Pins

  datatype Stored = PinArray(pins: seq<Pin>) | Unparseable

  type Store = map<string, Stored>

  /** The key the map variants load from and save to. */
  const MapKey: string := "rdr2-map-pins"

  /** The mount effect: the stored pin array, or the initial empty list when
      the key is missing or its text fails to parse. */
  function Load(store: Store, key: string): (pins: seq<Pin>)
    ensures key !in store ==> pins == []
    ensures key in store && store[key].Unparseable? ==> pins == []
  {
    if key in store && store[key].PinArray? then store[key].pins else []
  }

  /** `localStorage.setItem(key, JSON.stringify(pins))`. */
  function Save(store: Store, key: string, pins: seq<Pin>): (r: Store)
    ensures r.Keys == store.Keys + {key}
    ensures forall k :: k in store && k != key ==> r[k] == store[k]
  {
    store[key := PinArray(pins)]
  }

  /** Saving then loading under the same key gives back the saved list. */
  lemma SaveThenLoad(store: Store, key: string, pins: seq<Pin>)
    ensures Load(Save(store, key, pins), key) == pins
  {
  }

  /** The save effect of the map variants as written: the list is stored only
      when it is non-empty. */
  function SaveIfNonEmpty(store: Store, key: string, pins: seq<Pin>): (r: Store)
    ensures |pins| > 0 ==> Load(r, key) == pins
    ensures pins == [] ==> r == store
  {
    if |pins| > 0 then Save(store, key, pins) else store
  }

  /** With the save effect as written, a list emptied by deleting its last
      pin is never stored, so the next load brings the deleted pin back. */
  lemma DeletedLastPinReappears(store: Store, key: string, pin: Pin)
    ensures var saved := SaveIfNonEmpty(store, key, [pin]);
            var afterDelete := SaveIfNonEmpty(saved, key, []);
            Load(afterDelete, key) == [pin] != []
  {
  }

  /** The save effect as evidently intended: once the stored list has been
      read (`loaded`), every list, including the empty one, is stored. */
  function SaveOnceLoaded(store: Store, key: string, pins: seq<Pin>, loaded: bool): (r: Store)
    ensures loaded ==> Load(r, key) == pins
    ensures !loaded ==> r == store
  {
    if loaded then Save(store, key, pins) else store
  }

  /** With the corrected save effect, the stored list follows the in-memory
      list through every change, the change to empty included. */
  lemma SaveOnceLoadedMirrors(store: Store, key: string, before: seq<Pin>, after: seq<Pin>)
    ensures Load(SaveOnceLoaded(SaveOnceLoaded(store, key, before, true), key, after, true), key) == after
  {
  }
}

=== FILE: text.dfy ===
/** The string operations the components rely on: `toLowerCase` (ASCII letters
    only), `includes` (substring search) and `trim` (ECMAScript white space and
    line terminators at both ends). */
module Text {

  function LowerChar(c: char): (r: char)
    ensures 'A' <= c <= 'Z' ==> 'a' <= r <= 'z' && r as int - c as int == 32
    ensures !('A' <= c <= 'Z') ==> r == c
  {
    if 'A' <= c <= 'Z' then (c as int + 32) as char else c
  }

  /** Lower-case every ASCII capital letter; every other character is kept. */
  function Lower(s: string): (r: string)
    ensures |r| == |s|
    ensures forall i :: 0 <= i < |s| ==> r[i] == LowerChar(s[i])
    ensures forall i :: 0 <= i < |r| ==> !('A' <= r[i] <= 'Z')
  {
    seq(|s|, i requires 0 <= i < |s| => LowerChar(s[i]))
  }

  /** Lower-casing twice is lower-casing once. */
  lemma LowerIdempotent(s: string)
    ensures Lower(Lower(s)) == Lower(s)
  {
    assert forall i :: 0 <= i < |s| ==> Lower(Lower(s))[i] == Lower(s)[i];
  }

  /** `q` occurs in `s` starting at position `i`. */
  predicate OccursAt(s: string, q: string, i: nat)
  {
    i + |q| <= |s| && s[i..i + |q|] == q
  }

  /** `s.includes(q)`: searched from the front, one start position at a time. */
  predicate Contains(s: string, q: string)
    decreases |s|
  {
    OccursAt(s, q, 0) || (|s| > 0 && Contains(s[1..], q))
  }

  /** `Contains` means an occurrence exists somewhere. */
  lemma {:induction false} ContainsIffOccurs(s: string, q: string)
    ensures Contains(s, q) <==> exists i: nat :: OccursAt(s, q, i)
    decreases |s|
  {
    if |s| > 0 {
      ContainsIffOccurs(s[1..], q);
      if exists i: nat :: OccursAt(s[1..], q, i) {
        var i: nat :| OccursAt(s[1..], q, i);
        assert s[1..][i..i + |q|] == s[i + 1..i + 1 + |q|];
        assert OccursAt(s, q, i + 1);
      }
      if exists i: nat :: OccursAt(s, q, i) {
        var i: nat :| OccursAt(s, q, i);
        if i > 0 {
          assert s[1..][i - 1..i - 1 + |q|] == s[i..i + |q|];
          assert OccursAt(s[1..], q, i - 1);
        }
      }
    } else {
      if exists i: nat :: OccursAt(s, q, i) {
        var i: nat :| OccursAt(s, q, i);
        assert i == 0;
      }
    }
  }

  /** Every string contains the empty string. */
  lemma ContainsEmpty(s: string)
    ensures Contains(s, "")
  {
    assert s[0..0] == "";
  }

  /** The characters `String.prototype.trim` removes: ECMAScript WhiteSpace
      (tab, vertical tab, form feed, space, no-break space, byte-order mark and
      the Unicode space separators) and LineTerminator (LF, CR, LS, PS). */
  predicate IsWhitespace(c: char)
  {
    || c == '\t' || c == '\n' || c == '\U{000B}' || c == '\U{000C}' || c == '\r' || c == ' '
    || c == '\U{00A0}' || c == '\U{1680}' || ('\U{2000}' <= c <= '\U{200A}')
    || c == '\U{2028}' || c == '\U{2029}' || c == '\U{202F}' || c == '\U{205F}'
    || c == '\U{3000}' || c == '\U{FEFF}'
  }

  /** Number of white-space characters at the front of `s`. */
  function LeadingSpace(s: string): (n: nat)
    ensures n <= |s|
    ensures forall k :: 0 <= k < n ==> IsWhitespace(s[k])
    ensures n < |s| ==> !IsWhitespace(s[n])
  {
    if |s| > 0 && IsWhitespace(s[0]) then 1 + LeadingSpace(s[1..]) else 0
  }

  /** Number of white-space characters at the back of `s`. */
  function TrailingSpace(s: string): (n: nat)
    ensures n <= |s|
    ensures forall k :: |s| - n <= k < |s| ==> IsWhitespace(s[k])
    ensures n < |s| ==> !IsWhitespace(s[|s| - n - 1])
  {
    if |s| > 0 && IsWhitespace(s[|s| - 1]) then 1 + TrailingSpace(s[..|s| - 1]) else 0
  }

  /** `s.trim()`: `s` with its leading and trailing white space cut off. */
  function Trim(s: string): (r: string)
    ensures |r| <= |s|
    ensures exists i :: Trimmed(s, i, r)
    ensures r != [] ==> !IsWhitespace(r[0]) && !IsWhitespace(r[|r| - 1])
    ensures r == [] <==> forall k :: 0 <= k < |s| ==> IsWhitespace(s[k])
  {
    var front := LeadingSpace(s);
    var back := TrailingSpace(s[front..]);
    TrimEnds(s, front, back);
    s[front..][..|s| - front - back]
  }

  /** `r` is the infix of `s` starting at `i`, and everything of `s` before
      and after it is white space. */
  predicate Trimmed(s: string, i: int, r: string)
  {
    && 0 <= i && i + |r| <= |s| && s[i..i + |r|] == r
    && (forall k :: 0 <= k < i ==> IsWhitespace(s[k]))
    && (forall k :: i + |r| <= k < |s| ==> IsWhitespace(s[k]))
  }

  /** What is left between the leading and the trailing white space. */
  lemma TrimEnds(s: string, front: nat, back: nat)
    requires front == LeadingSpace(s) && back == TrailingSpace(s[front..])
    ensures front + back <= |s|
    ensures var r := s[front..][..|s| - front - back];
      && Trimmed(s, front, r)
      && (r != [] ==> !IsWhitespace(r[0]) && !IsWhitespace(r[|r| - 1]))
      && (r == [] <==> forall k :: 0 <= k < |s| ==> IsWhitespace(s[k]))
  {
    var rest := s[front..];
    var r := rest[..|rest| - back];
    assert r == s[front..front + |r|];
    forall k | front + |r| <= k < |s| ensures IsWhitespace(s[k]) {
      assert s[k] == rest[k - front];
    }
    if front < |s| {
      assert rest[0] == s[front];
      assert back < |rest|;
      assert r[0] == s[front];
      assert r[|r| - 1] == rest[|rest| - back - 1];
    }
  }
}

=== FILE: viewport.dfy ===
/** The viewport arithmetic the map variants share: turning a click into a
    position in percent of the map element, drag-to-pan, and the clamped
    zoom steps. Coordinates and scale are real numbers; the rounding of
    IEEE doubles is not modelled. */
module Viewport {
  import opened Pins

  /** The result of `getBoundingClientRect()`: position and size in screen pixels. */
  datatype Rect = Rect(left: real, top: real, width: real, height: real) {

    predicate HasArea() {
      width > 0.0 && height > 0.0
    }
  }

  /** Position of a click in percent of `rect`, measured from its top-left
      corner. `ClickThenProject` and `ProjectThenClick` show it is the
      inverse of `PercentToScreen`. */
  function ClickToPercent(rect: Rect, client: Point): Point
    requires rect.HasArea()
  {
    Point((client.x - rect.left) / rect.width * 100.0, (client.y - rect.top) / rect.height * 100.0)
  }

  /** A click lies within the rectangle on an axis exactly when its
      percentage on that axis lies in [0, 100]. */
  lemma PercentInRangeIffInside(rect: Rect, client: Point)
    requires rect.HasArea()
    ensures var r := ClickToPercent(rect, client);
      && ((0.0 <= r.x <= 100.0) <==> (rect.left <= client.x <= rect.left + rect.width))
      && ((0.0 <= r.y <= 100.0) <==> (rect.top <= client.y <= rect.top + rect.height))
  {
    PercentWithin(client.x - rect.left, rect.width);
    PercentWithin(client.y - rect.top, rect.height);
  }

  /** A distance `d` along a side of length `w` is between 0 and 100 percent
      exactly when it lies on the side. */
  lemma PercentWithin(d: real, w: real)
    requires w > 0.0
    ensures (0.0 <= d / w * 100.0 <= 100.0) <==> (0.0 <= d <= w)
  {
    var q := d / w;
    assert d == q * w;
    if 0.0 <= q <= 1.0 {
      assert 0.0 <= q * w <= 1.0 * w;
    }
  }

  /** Where a position given in percent of `rect` lies on screen. */
  function PercentToScreen(rect: Rect, p: Point): Point
  {
    Point(rect.left + p.x * rect.width / 100.0, rect.top + p.y * rect.height / 100.0)
  }

  /** A click converted to percent lands, projected back, on the pixel that was clicked. */
  lemma ClickThenProject(rect: Rect, client: Point)
    requires rect.HasArea()
    ensures PercentToScreen(rect, ClickToPercent(rect, client)) == client
  {
    var r := ClickToPercent(rect, client);
    assert r.x * rect.width / 100.0 == client.x - rect.left;
    assert r.y * rect.height / 100.0 == client.y - rect.top;
  }

  /** A position projected to screen and clicked there is converted back to itself. */
  lemma ProjectThenClick(rect: Rect, p: Point)
    requires rect.HasArea()
    ensures ClickToPercent(rect, PercentToScreen(rect, p)) == p
  {
    var s := PercentToScreen(rect, p);
    assert (s.x - rect.left) / rect.width == p.x / 100.0;
    assert (s.y - rect.top) / rect.height == p.y / 100.0;
  }

  /** A map layer of `size` pixels whose untransformed top-left corner sits
      at `corner` on screen. The layer is drawn with the CSS transform
      `translate(pan) scale(scale)` about its centre (`transform-origin: center`). */
  datatype Layer = Layer(corner: Point, size: Point)

  /** Where the point `local` pixels from the layer's corner appears on
      screen: the centre moves by `pan`, and distances from the centre are
      multiplied by `scale`. */
  function LayerToScreen(l: Layer, pan: Point, scale: real, local: Point): Point
  {
    Point(l.corner.x + l.size.x / 2.0 + pan.x + scale * (local.x - l.size.x / 2.0),
          l.corner.y + l.size.y / 2.0 + pan.y + scale * (local.y - l.size.y / 2.0))
  }

  /** Where a marker styled `left: x%; top: y%` inside the layer appears on screen. */
  function MarkerScreen(l: Layer, pan: Point, scale: real, p: Point): Point
  {
    LayerToScreen(l, pan, scale, Point(p.x * l.size.x / 100.0, p.y * l.size.y / 100.0))
  }

  /** The rectangle the transformed layer covers on screen. */
  function LayerRect(l: Layer, pan: Point, scale: real): (r: Rect)
    requires scale > 0.0 && l.size.x > 0.0 && l.size.y > 0.0
    ensures r.HasArea()
    ensures Point(r.left, r.top) == LayerToScreen(l, pan, scale, Origin)
    ensures Point(r.left + r.width, r.top + r.height) == LayerToScreen(l, pan, scale, l.size)
  {
    var topLeft := LayerToScreen(l, pan, scale, Origin);
    Rect(topLeft.x, topLeft.y, scale * l.size.x, scale * l.size.y)
  }

  /** A marker at `p` percent of the layer is drawn at `p` percent of the
      rectangle the transformed layer covers. */
  lemma MarkerIsPercentOfLayerRect(l: Layer, pan: Point, scale: real, p: Point)
    requires scale > 0.0 && l.size.x > 0.0 && l.size.y > 0.0
    ensures MarkerScreen(l, pan, scale, p) == PercentToScreen(LayerRect(l, pan, scale), p)
  {
    var r := LayerRect(l, pan, scale);
    assert scale * (p.x * l.size.x / 100.0 - l.size.x / 2.0) == p.x * r.width / 100.0 - scale * l.size.x / 2.0;
    assert scale * (p.y * l.size.y / 100.0 - l.size.y / 2.0) == p.y * r.height / 100.0 - scale * l.size.y / 2.0;
  }

  /** A click taken in percent of the transformed layer's rectangle is drawn
      back exactly at the clicked pixel, wherever the layer is panned and
      however it is zoomed. */
  lemma ClickOnLayerLandsOnMarker(l: Layer, pan: Point, scale: real, client: Point)
    requires scale > 0.0 && l.size.x > 0.0 && l.size.y > 0.0
    ensures MarkerScreen(l, pan, scale, ClickToPercent(LayerRect(l, pan, scale), client)) == client
  {
    var r := LayerRect(l, pan, scale);
    MarkerIsPercentOfLayerRect(l, pan, scale, ClickToPercent(r, client));
    ClickThenProject(r, client);
  }

  /** Mouse-down records where the pointer sits relative to the current pan offset. */
  function DragAnchor(pointer: Point, offset: Point): (anchor: Point)
    ensures anchor.Plus(offset) == pointer
  {
    pointer.Minus(offset)
  }

  /** Mouse-move while dragging puts the offset at pointer minus anchor. */
  function DragOffset(pointer: Point, anchor: Point): (offset: Point)
    ensures anchor.Plus(offset) == pointer
  {
    pointer.Minus(anchor)
  }

  /** A drag moves the map by exactly the distance the pointer travelled;
      in particular, returning to the mouse-down point restores the offset. */
  lemma DragFollowsPointer(offset: Point, down: Point, now: Point)
    ensures DragOffset(now, DragAnchor(down, offset)) == offset.Plus(now.Minus(down))
    ensures DragOffset(down, DragAnchor(down, offset)) == offset
  {
  }

  const ZoomStep: real := 0.2
  const MinScale: real := 0.5
  const MaxScale: real := 2.0

  predicate ScaleInRange(s: real)
  {
    MinScale <= s <= MaxScale
  }

  /** `Math.min(s + 0.2, 2)`: one step up, or the cap when the step would pass it. */
  function ZoomIn(s: real): (r: real)
    ensures s + ZoomStep <= MaxScale ==> r == s + ZoomStep
    ensures MaxScale <= s + ZoomStep ==> r == MaxScale
    ensures r <= MaxScale
    ensures r == s + ZoomStep || r == MaxScale
    ensures s <= MaxScale ==> s <= r
    ensures ScaleInRange(s) ==> ScaleInRange(r)
  {
    if s + ZoomStep < MaxScale then s + ZoomStep else MaxScale
  }

  /** `Math.max(s - 0.2, 0.5)`: one step down, or the floor when the step would pass it. */
  function ZoomOut(s: real): (r: real)
    ensures MinScale <= s - ZoomStep ==> r == s - ZoomStep
    ensures s - ZoomStep <= MinScale ==> r == MinScale
    ensures MinScale <= r
    ensures r == s - ZoomStep || r == MinScale
    ensures MinScale <= s ==> r <= s
    ensures ScaleInRange(s) ==> ScaleInRange(r)
  {
    if s - ZoomStep > MinScale then s - ZoomStep else MinScale
  }

  /** Away from the bounds a zoom step is undone by the opposite step. */
  lemma ZoomStepsCancel(s: real)
    ensures s + ZoomStep <= MaxScale && MinScale <= s ==> ZoomOut(ZoomIn(s)) == s
    ensures s - ZoomStep >= MinScale && s <= MaxScale ==> ZoomIn(ZoomOut(s)) == s
  {
  }
}

=== FILE: wrappers.dfy ===
/** The optional value used wherever the source holds `T | null`
    (a pending pin position, the selected pin, a stored entry). */
module Wrappers {

  datatype Option<+T> = None | Some(value: T)
}
